=== FILE: README.md ===
# gosnoo core, modelled in Dafny

This project models the pure, single-threaded core of gosnoo, a terminal browser for
Reddit. It lists the posts of one subreddit, shows a post's detail and shows its comment
tree flattened into an indented list. The model has four parts:

- **The state machine** (`App`, `app.dfy`; properties in `AppLemmas`, `app_lemmas.dfy`).
  The application state is an immutable `Model` record. `Update` takes a state and one
  event and returns the next state and at most one command. Events are a key, a resize,
  a posts-loaded result, a comments-loaded result or any other runtime event. Commands
  are data: quit, fetch the first page, fetch more (carrying the post list captured when
  it was issued) and fetch comments. The content service's reply to a fetch is also data
  (`PostsReply`, `CommentsReply`). `PostsDelivered` and `CommentsDelivered` turn a command
  and its reply into the completion event, as the program's command closures do.
- **The data mapper** (`Reddit`, `reddit.dfy`). It holds the `Post` and `Comment` records,
  the field projections `MapPost`, `MapPosts` and `MapComment`, and `Flatten`. `Flatten`
  turns a reply forest into a depth-annotated sequence in pre-order. Its partner
  `Unflatten` rebuilds the forest from that sequence, and the round trip
  `UnflattenFlatten` shows the depths alone determine the tree.
- **Text helpers** (`Text`, `text.dfy`): newline `Split`/`Join`, `WrapText`, `Truncate`
  and decimal printing.
- **The renderer** (`Views`, `view.dfy`; properties in `ViewLemmas`, `view_lemmas.dfy`).
  `View` and the three screen views. Terminal styling renders every span as its plain text.

Supporting pieces: the `Screens` enumeration (`screen.dfy`), the key bindings `Keys`
(`keys.dfy`), an `Option` type (`wrappers.dfy`) and prefix and suffix predicates on sequences (`Seqs`, `seqs.dfy`).

Strings are `seq<char>`, with one character per byte of the program's strings. So
lengths, slicing, wrapping and truncation count characters where the program counts bytes.
A Go `error` is modelled by its message, as `Option<string>`.

Behaviours of the code worth noting:
- A successful posts load resets the cursor to 0 after a fetch-more too, not only after a
  full reload.
- A completion event never changes the screen.
- A successful reload does not clear a recorded error, although the error view invites a
  retry with 'r' (`internal/app/view.go:13`; see Findings).
- The start-up fetch does not set the loading flag, so a fetch can be outstanding while
  `loading` is false (`ViewLemmas.InitialViewNotLoading`).

## Model

| member | source | states |
|---|---|---|
| Screens.Name | internal/state/screen.go:6-29 | the declared screens 0 to 4, in declaration order, print "posts", "post", "comments", "subreddits" and "help"; every other value prints "unknown" |
| Screens.NameInjective | internal/state/screen.go:16-26 | no two declared screens share a printed name |
| Keys.Contains | internal/ui/keys.go:6-14 | a key set contains a key iff some element equals it; the empty set contains nothing |
| Keys.QuitKeys | internal/ui/keys.go:31 | quit is bound to exactly "q" and "ctrl+c" |
| Keys.QuitDisjointFromOthers | internal/ui/keys.go:31-42 | no quit key is bound to any other action, so the global quit check shadows nothing |
| Keys.PostListKeysDisjoint | internal/ui/keys.go:32-40 | up, down, enter, next-page and refresh share no key, so the post-list dispatch is unambiguous |
| Keys.BackCommentsDisjoint | internal/ui/keys.go:37-41 | back and comments share no key |
| Reddit.MapPost | internal/reddit/mapping.go:7-22 | each remote field lands in one post field, so the remote post is recoverable (`SourceOfPost`); the thumbnail is always empty |
| Reddit.MapPostInjective | internal/reddit/mapping.go:8-22 | two remote posts that map to the same post are equal |
| Reddit.MapPosts | internal/reddit/mapping.go:24-31 | the result has the input's length, and position i is the projection of remote post i |
| Reddit.MapComment | internal/reddit/mapping.go:33-43 | the entry has the given depth and, with the replies, rebuilds the remote comment |
| Reddit.Flatten | internal/reddit/mapping.go:46-55 | the flattening has at least one entry per top-level comment, and a non-empty forest's first entry is its first comment at the starting depth |
| Reddit.FlattenEmpty | internal/reddit/mapping.go:46-55 | an empty forest flattens to nothing |
| Reddit.FlattenSingle | internal/reddit/mapping.go:48-52 | a comment comes immediately before the flattening of its replies one level deeper |
| Reddit.FlattenCons | internal/reddit/mapping.go:48-53 | a non-empty forest flattens to its first comment, that comment's replies, then its later siblings |
| Reddit.FlattenAppend | internal/reddit/mapping.go:46-55 | siblings keep input order: flattening distributes over concatenation of forests |
| Reddit.FlattenLength | internal/reddit/mapping.go:46-55 | the flattening has exactly one entry per comment in the forest |
| Reddit.FlattenDepths | internal/reddit/mapping.go:49-51 | every entry's depth is at least the starting depth and below it plus the forest height |
| Reddit.FlattenTopLevel | internal/reddit/mapping.go:48-52 | the entries at the starting depth are exactly the top-level comments, in order |
| Reddit.Unflatten | internal/reddit/mapping.go:46-55 | the partner of flattening: it reads a depth-annotated pre-order back into a forest and never leaves more than its input unread |
| Reddit.UnflattenRemainder | internal/reddit/mapping.go:46-55 | what `Unflatten` leaves unread is the end of its input, untouched |
| Reddit.UnflattenFlatten | internal/reddit/mapping.go:46-55 | unflattening a flattened forest gives the forest back, so depths alone determine the nesting |
| Reddit.FlattenInjective | internal/reddit/mapping.go:46-55 | different forests flatten to different sequences |
| Reddit.FlattenTwoLeafThread | internal/reddit/mapping.go:48-52 | a comment with two leaf replies flattens to itself and then both replies one level deeper |
| Reddit.ThreeThreadsScenario | internal/reddit/mapping.go:46-55 | three comments with two replies each give nine entries, with depths 0,1,1 repeated |
| Text.Split | internal/app/view.go:152 | splitting on newlines gives at least one line, and no line contains a newline |
| Text.JoinSplit | internal/app/view.go:152 | joining the split lines with newlines gives back the string |
| Text.SplitJoin | internal/app/view.go:129 | splitting a newline-join of newline-free lines gives back the lines |
| Text.TrimTerminate | internal/app/view.go:151-168 | writing each line and a newline, then trimming one trailing newline, is joining with newlines |
| Text.EffectiveWidth | internal/app/view.go:148-150 | the wrap width is positive, and equals the requested width when that is positive |
| Text.PiecesShape | internal/app/view.go:158-166 | the cut pieces rebuild the line; there are ⌈len/width⌉ of them; all are non-empty and at most width long, all but the last exactly width |
| Text.WrapLineShape | internal/app/view.go:152-166 | each input line becomes max(1, ⌈len/width⌉) lines of at most width characters that rebuild it, and a line that fits stays whole |
| Text.WrapLinesBounded | internal/app/view.go:152-167 | wrapping newline-free lines gives newline-free lines of at most width characters, at least one per input line |
| Text.WrapLinesFit | internal/app/view.go:153-156 | lines that already fit are left unchanged |
| Text.WrapText | internal/app/view.go:147-169 | the output's lines are the input's lines, each wrapped, in order, so embedded newlines stay line breaks and no other newline appears |
| Text.WrapTextWidth | internal/app/view.go:147-169 | every output line fits the effective width |
| Text.WrapTextDefaultWidth | internal/app/view.go:148-150 | a width of 0 or less wraps at 80 |
| Text.WrapTextFits | internal/app/view.go:152-168 | text whose lines all fit is returned unchanged |
| Text.WrapTextIdempotent | internal/app/view.go:147-169 | wrapping twice at the same width equals wrapping once |
| Text.WrapTwoHundredAtEighty | internal/app/view.go:152-166 | a 200-character line at width 80 becomes three lines: its characters 0-79, 80-159 and 160-199 |
| Text.Truncate | internal/app/view.go:140-145 | a string within max is kept; a longer one becomes exactly max characters, its first max-3 followed by "..." |
| Text.TruncateIdempotent | internal/app/view.go:140-145 | truncating twice to the same budget is truncating once |
| Text.Digits | internal/app/view.go:47 | a natural number prints as decimal digits only, a single one exactly below 10, and with no leading zero (only 0 starts with '0') |
| Text.DigitsValueOfDigits | internal/app/view.go:47 | the printed digits of a natural number spell that number |
| Text.DecimalString | internal/app/view.go:47 | `%d` printing reads back as the same integer, starts with a minus sign exactly for negative numbers, and its digits have no leading zero |
| Text.DigitsValueLeading | internal/app/view.go:47 | digits without a leading zero spell at least 1, and at least 10 from two digits on |
| Text.DigitsUnique | internal/app/view.go:47 | digits without a leading zero are exactly the printing of the number they spell |
| Text.DecimalUnique | internal/app/view.go:47 | every sign-and-digits text without a leading zero (and not "-0") is the `%d` printing of the number it reads as, so the printing is the unique such text |
| App.NewModel | internal/app/model.go:28-34 | the initial state satisfies the cursor invariant |
| App.Init | internal/app/update.go:22-24 | start-up fetches the first page (empty token, page size 25) of the state's subreddit |
| App.HandlePostListKeys | internal/app/update.go:80-105 | post-list keys keep the cursor in range and move it by at most one; they change neither posts, comments nor error; the only screen change is to the detail and needs a post; any command is a posts fetch and sets loading |
| App.HandlePostDetailKeys | internal/app/update.go:107-119 | post-detail keys never touch data, cursor or error; a command is issued only with posts, fetches the comments of `posts[cursor]`, switches to the comments screen and sets loading |
| App.HandleCommentsKeys | internal/app/update.go:121-128 | the comments screen never issues a command; a back key returns to the detail and drops the comments; every other key changes nothing |
| App.HandleKey | internal/app/update.go:60-78 | a quit key yields the quit command with the state unchanged, whatever the screen; no other key yields quit; on an undeclared screen only quit has an effect |
| App.Update | internal/app/update.go:26-58 | every event keeps the cursor in range and the subreddit fixed; a set error stays set; every fetch issued sets loading; quit leaves the state unchanged; only keys issue commands |
| App.UpdateRecovering | internal/app/update.go:36-54 | corrected step: like `Update` except that a successful load clears the error |
| App.Run | internal/app/update.go:26-58 | any sequence of events, applied one at a time, keeps the cursor in range |
| App.PostsDelivered | internal/app/update.go:130-151 | a failure carries the error and an empty token; a success carries the new token; the posts are the captured list (fetch-more only) followed by the projections of the fetched page |
| App.CommentsDelivered | internal/app/update.go:153-161 | a failure carries the error and no comments; a success carries the flattened forest, which has one entry per comment, unflattens back to the forest, and has the top-level comments at depth 0 |
| AppLemmas.InitialState | internal/app/model.go:28-34 | the initial state is the post list of "reddevils", empty, not loading, without error or token; start-up fetches its first hot page |
| AppLemmas.QuitKeyQuits | internal/app/update.go:63-66 | a quit key returns the quit command and the unchanged state on any screen |
| AppLemmas.UpKey | internal/app/update.go:82-85 | up decrements the cursor only when it is positive, and changes nothing else |
| AppLemmas.DownKey | internal/app/update.go:86-89 | down increments the cursor only when it is below the last row, and changes nothing else |
| AppLemmas.EnterKey | internal/app/update.go:90-93 | enter opens the detail exactly when there is a post |
| AppLemmas.NextPageKey | internal/app/update.go:94-98 | next page sets loading and fetches more (after the token, capturing the posts) only when a token exists and nothing is loading; otherwise nothing happens |
| AppLemmas.RefreshKey | internal/app/update.go:99-102 | refresh always sets loading, clears the token and fetches the first page, even while loading |
| AppLemmas.BackFromDetail | internal/app/update.go:109-110 | back on the detail returns to the post list |
| AppLemmas.CommentsKey | internal/app/update.go:111-116 | the comments key opens the comments screen, sets loading and fetches the selected post's comments, when there is a post |
| AppLemmas.BackFromComments | internal/app/update.go:123-125 | back on the comments screen returns to the detail and drops the comments |
| AppLemmas.ResizeOnlyRecordsSize | internal/app/update.go:31-34 | a resize records the size and changes nothing else |
| AppLemmas.PostsLoadedOk | internal/app/update.go:36-45 | a successful posts load clears loading, installs posts and page and resets the cursor to 0; screen and error are untouched |
| AppLemmas.LoadFailed | internal/app/update.go:37-41 | a failed posts or comments load clears loading and sets the error; posts, page, cursor, comments and screen stay |
| AppLemmas.CommentsLoadedOk | internal/app/update.go:47-54 | a successful comments load clears loading and installs the comments |
| AppLemmas.ErrorNeverCleared | internal/app/update.go:26-58 | once set, the error stays set under any sequence of events |
| AppLemmas.FetchMoreExtends | internal/app/update.go:142-150 | when a fetch-more succeeds, the posts from when it was issued are a prefix of the new list, whatever happened in between |
| AppLemmas.RefreshReplaces | internal/app/update.go:131-139 | when a refresh succeeds, the list is replaced by the fetched page and the cursor reset |
| AppLemmas.PaginationScenario | internal/app/update.go:94-98 | 25 posts with a token, then 5 more with none, give 30 posts in order; a further next-page key does nothing |
| Views.CommunityHeader | internal/app/view.go:32 | the community header is the name, unchanged, between " r/" and a trailing space |
| Views.ErrorView | internal/app/view.go:13 | the error view starts with "Error: " and the message unchanged, and ends with a blank line and the retry and quit hints |
| Views.PostRow | internal/app/view.go:42-54 | a row carries the "> " marker exactly when it is selected, then the bracketed score and the title, and ends with the comment count and a newline |
| Views.RowList | internal/app/view.go:41-55 | one row per post, in order (row i is post i's row), and exactly the row at the cursor is marked |
| Views.PostRows | internal/app/view.go:41-55 | the rows written from a position on are the rows of those posts, one after another |
| Views.ListFooter | internal/app/view.go:57-62 | after the rows comes "\nLoading more..." exactly while loading, then a newline and the help line |
| Views.ViewPostList | internal/app/view.go:29-65 | the list starts with the subreddit header; while an empty list loads it shows only "Loading..."; otherwise the header is followed by every post's row in order (exactly the cursor's row marked), then "\nLoading more..." exactly while loading, then a newline and the help line |
| Views.DetailBody | internal/app/view.go:85-91 | nothing is shown exactly when there is neither a self text to show nor a link; otherwise a text post's own text, or else the link, followed by a newline |
| Views.Byline | internal/app/view.go:81 | the byline is "by ", the author and a bullet, then the score in decimal with " points • ", then the comment count and " comments" |
| Views.ViewPostDetail | internal/app/view.go:67-97 | without posts it shows "No post selected"; otherwise the selected post's subreddit header and title, its byline and a blank line, then its body (self text, else link, else nothing) and the help line |
| Views.Indent | internal/app/view.go:121 | the indentation of depth d is 2d spaces |
| Views.BodyWidth | internal/app/view.go:128 | a comment body wraps at 80 less twice the depth, which is positive exactly below depth 40 |
| Views.Indented | internal/app/view.go:129-131 | each body line is shown with the indentation in front |
| Views.BodyLines | internal/app/view.go:127-131 | at least one line; each starts with the comment's indentation and holds no newline; without the indentation the lines join back into the wrapped body |
| Views.CommentBlock | internal/app/view.go:120-133 | a comment's block starts with its indentation, author and bracketed decimal score on one line, and ends with every body line followed by a newline, then a blank line |
| Views.BlockList | internal/app/view.go:120-133 | one block per comment, in order |
| Views.CommentBlocks | internal/app/view.go:120-133 | the comment blocks written one after another, in the comments' order |
| Views.CommentsHeader | internal/app/view.go:107 | the header shows a title of at most 40 characters in full; a longer one as its first 37 characters and "...", making the header 54 characters; never more than 54 |
| Views.ViewComments | internal/app/view.go:99-138 | without posts it shows "No post selected"; it starts with the header; while loading it shows only the loading line; with no comments, only "No comments"; otherwise the header, every comment's block in order, then the help line |
| Views.View | internal/app/view.go:11-27 | a set error shows the error view on every screen; otherwise the current screen's view; an undeclared screen shows nothing |
| ViewLemmas.ErrorHidesScreen | internal/app/view.go:12-14 | while an error is set, the output does not depend on the screen |
| ViewLemmas.ViewIgnoresSize | internal/app/view.go:11-27 | the recorded terminal size never affects the output |
| ViewLemmas.LoadingEmptyList | internal/app/view.go:36-39 | an empty list that is loading shows the header and "Loading...", with no rows or help line |
| ViewLemmas.InitialViewNotLoading | internal/app/update.go:22-24 | the start-up fetch leaves loading false, so the initial screen is the empty list with its help line, not "Loading..." |
| ViewLemmas.NoPostPlaceholder | internal/app/view.go:68-70 | without posts, the detail and comments screens show "No post selected" |
| ViewLemmas.CommentLinesFit | internal/app/view.go:120-131 | below depth 40, every shown body line fits 80 columns, indentation included |
| ViewLemmas.DeepCommentLines | internal/app/view.go:127-128 | from depth 40 on, the body width is not positive, so the body wraps at 80 after the indentation |
| ViewLemmas.RetryKeepsErrorView | internal/app/update.go:36-45 | as written, after a failed first load, a successful retry with 'r' installs the posts but leaves the error view |
| ViewLemmas.RetryRecovers | internal/app/update.go:36-45 | with the corrected step, the successful retry clears the error and shows the post list |

## Left out

- The content service (`internal/reddit/service.go`) is not modelled: its network calls, the client, `context` and the sort switch. It appears only as the commands the state machine issues and the replies (`PostsReply`, `CommentsReply`) it answers with. A reply on the success path carries the remote posts or the reply forest; the mapping and flattening the service applies is modelled.
- Asynchronous execution of commands and the arrival order of overlapping fetch results are not modelled. Results are applied one event at a time (`Run`), in whatever order they are given.
- Terminal styling (`internal/ui/styles.go`) is not modelled: every `Render` is the identity.
- Process entry, version output, exit codes and program start-up (`cmd/reddit-tui/main.go`, `internal/app/app.go`) are not modelled.
- Time zone conversion is not modelled: timestamps are opaque instants and `.UTC()` keeps them.
- The `Subreddit` record and the service's subreddit lookup are not modelled, because the core never uses them.
- The subreddit-list and help screens, and the left, right, previous-page and help key sets, are declared but unreachable from `Update`. They appear only in `Screens.Name` and in the disjointness lemmas.
- Terminal width and height are recorded but never read. The model only states that a resize changes nothing else and never affects the output.
- Go's byte-based string length is modelled as character count. Non-ASCII help glyphs are single characters here.
- Text.Truncate: requires `max >= 3`. The program's slice `s[:max-3]` panics below that, and its only caller passes 40.
- App.Update: requires the cursor invariant. The comments key indexes `posts[cursor]`, which panics otherwise. `NewModel` establishes the invariant and every event preserves it, so every reachable state meets it.
- Reddit.MapComment: the depth is a natural number rather than Go's `int`. `flattenComments` is only ever started at 0 and deepens by 1.

## Findings

| source | as written | input that shows it | evidently intended | confidence | as-written member | corrected member |
|---|---|---|---|---|---|---|
| internal/app/update.go:36-45 | a successful posts load never clears `err`, and `View` shows only the error view while `err` is set | the first load fails with error e; the user presses 'r' as the error view invites; the retry succeeds; the screen still shows "Error: e" | a successful load clears the recorded error, so the advertised retry can dismiss the error view | high (not executed) | ViewLemmas.RetryKeepsErrorView | App.UpdateRecovering |

The properties of `Update` above describe the program as written. `App.UpdateRecovering`
is the corrected step. Its contract states the recovery, and `ViewLemmas.RetryRecovers`
proves the retry scenario for it.

=== FILE: app.dfy ===
/**
 The application state and its event-driven update
 (internal/app/model.go, internal/app/update.go).

 The state is an immutable record; `Update` maps a state and one event to
 the next state and at most one command. Commands are data: the fetches
 the program would run asynchronously, each later answered by a
 completion event built by `PostsDelivered` or `CommentsDelivered` from
 the content service's reply.
 */
module App {
  import opened Wrappers
  import opened Reddit
  import Screens
  import Keys

  /** An error, represented by its message. */
  type Error = string

  /** Pagination state: the continuation token of the next page, empty when there is none. */
  datatype PageInfo = PageInfo(after: string)

  /** The application state. */
  datatype Model = Model(
    screen: Screens.Screen,
    subreddit: string,
    posts: seq<Post>,
    comments: seq<Comment>,
    cursor: int,
    page: PageInfo,
    loading: bool,
    err: Option<Error>,
    width: int,
    height: int)

  const DefaultSubreddit: string := "reddevils"
  const DefaultSort: string := "hot"
  const PageSize: int := 25

  /**
   The list cursor is in range: a valid index into the posts, or 0 when
   there are none.
   */
  predicate CursorOk(m: Model) {
    && 0 <= m.cursor
    && (|m.posts| == 0 ==> m.cursor == 0)
    && (|m.posts| > 0 ==> m.cursor < |m.posts|)
  }

  /** Asynchronous work requested by an update. */
  datatype Cmd =
    | Quit
      /** The first page of a listing. */
    | FetchPosts(subreddit: string, sort: string, after: string, limit: int)
      /** The page after `after`; `prior` is the post list captured when the command was issued. */
    | FetchMorePosts(subreddit: string, sort: string, after: string, limit: int, prior: seq<Post>)
      /** The reply tree of one post. */
    | FetchComments(subreddit: string, postID: string)

  /** The events an update consumes. */
  datatype Msg =
    | Key(key: string)
    | WindowSize(width: int, height: int)
    | PostsLoaded(posts: seq<Post>, page: PageInfo, err: Option<Error>)
    | CommentsLoaded(comments: seq<Comment>, err: Option<Error>)
      /** Any other event of the terminal runtime. */
    | Other

  /** The initial state: the post list of the default community, nothing loaded. */
  function NewModel(): (m: Model)
    ensures CursorOk(m)
  {
    Model(
      screen := Screens.PostList,
      subreddit := DefaultSubreddit,
      posts := [],
      comments := [],
      cursor := 0,
      page := PageInfo(""),
      loading := false,
      err := None,
      width := 0,
      height := 0)
  }

  /** The command issued at start-up: the first page of the current community. */
  function Init(m: Model): (c: Cmd)
    ensures c.FetchPosts? && c.subreddit == m.subreddit && c.after == "" && c.limit == PageSize
  {
    FetchPosts(m.subreddit, DefaultSort, "", PageSize)
  }

  /** Keys on the post list: move, open, load the next page, reload. */
  function HandlePostListKeys(m: Model, key: string): (res: (Model, Option<Cmd>))
    requires CursorOk(m)
    ensures CursorOk(res.0)
    ensures res.0.posts == m.posts && res.0.comments == m.comments && res.0.err == m.err
    ensures res.0.subreddit == m.subreddit
    ensures -1 <= res.0.cursor - m.cursor <= 1
    ensures res.0.screen != m.screen ==> res.0.screen == Screens.PostDetail && |m.posts| > 0
    ensures res.1.Some? ==> res.0.loading && (res.1.value.FetchPosts? || res.1.value.FetchMorePosts?)
    ensures res.1.None? ==> res.0.loading == m.loading
  {
    if Keys.Contains(Keys.Up, key) then
      (if m.cursor > 0 then m.(cursor := m.cursor - 1) else m, None)
    else if Keys.Contains(Keys.Down, key) then
      (if m.cursor < |m.posts| - 1 then m.(cursor := m.cursor + 1) else m, None)
    else if Keys.Contains(Keys.Enter, key) then
      (if |m.posts| > 0 then m.(screen := Screens.PostDetail) else m, None)
    else if Keys.Contains(Keys.NextPage, key) then
      if m.page.after != "" && !m.loading then
        var m' := m.(loading := true);
        (m', Some(FetchMorePosts(m'.subreddit, DefaultSort, m'.page.after, PageSize, m'.posts)))
      else
        (m, None)
    else if Keys.Contains(Keys.Refresh, key) then
      var m' := m.(loading := true, page := m.page.(after := ""));
      (m', Some(FetchPosts(m'.subreddit, DefaultSort, "", PageSize)))
    else
      (m, None)
  }

  /** Keys on the post detail: back to the list, or open the comments of the selected post. */
  function HandlePostDetailKeys(m: Model, key: string): (res: (Model, Option<Cmd>))
    requires CursorOk(m)
    ensures res.0.posts == m.posts && res.0.cursor == m.cursor && res.0.err == m.err
    ensures res.0.comments == m.comments && res.0.page == m.page
    ensures res.1.Some? ==>
      && |m.posts| > 0
      && res.1.value == FetchComments(m.subreddit, m.posts[m.cursor].id)
      && res.0.screen == Screens.Comments
      && res.0.loading
    ensures res.1.None? ==> res.0.loading == m.loading && res.0.screen in {m.screen, Screens.PostList}
  {
    if Keys.Contains(Keys.Back, key) then
      (m.(screen := Screens.PostList), None)
    else if Keys.Contains(Keys.Comments, key) then
      if |m.posts| > 0 then
        (m.(screen := Screens.Comments, loading := true), Some(FetchComments(m.subreddit, m.posts[m.cursor].id)))
      else
        (m, None)
    else
      (m, None)
  }

  /** Keys on the comments screen: back to the post detail, dropping the comments. */
  function HandleCommentsKeys(m: Model, key: string): (res: (Model, Option<Cmd>))
    ensures res.1.None?
    ensures res.0.posts == m.posts && res.0.cursor == m.cursor && res.0.err == m.err
    ensures res.0.loading == m.loading && res.0.page == m.page
    ensures res.0 != m <==> Keys.Contains(Keys.Back, key) && (m.screen != Screens.PostDetail || m.comments != [])
    ensures Keys.Contains(Keys.Back, key) ==> res.0.screen == Screens.PostDetail && res.0.comments == []
  {
    if Keys.Contains(Keys.Back, key) then
      (m.(screen := Screens.PostDetail, comments := []), None)
    else
      (m, None)
  }

  /** A key press: quit on any screen, otherwise the current screen's handler. */
  function HandleKey(m: Model, key: string): (res: (Model, Option<Cmd>))
    requires CursorOk(m)
    ensures CursorOk(res.0)
    ensures res.1 == Some(Quit) <==> Keys.Contains(Keys.Quit, key)
    ensures Keys.Contains(Keys.Quit, key) ==> res.0 == m
    ensures !(m.screen in {Screens.PostList, Screens.PostDetail, Screens.Comments}) ==>
      res.0 == m && (res.1.Some? ==> res.1.value.Quit?)
  {
    if Keys.Contains(Keys.Quit, key) then (m, Some(Quit))
    else if m.screen == Screens.PostList then HandlePostListKeys(m, key)
    else if m.screen == Screens.PostDetail then HandlePostDetailKeys(m, key)
    else if m.screen == Screens.Comments then HandleCommentsKeys(m, key)
    else (m, None)
  }

  /**
   The update step. Every event keeps the cursor in range and the
   community fixed; an error once set is never cleared; every fetch it
   issues marks the state as loading.
   */
  function Update(m: Model, msg: Msg): (res: (Model, Option<Cmd>))
    requires CursorOk(m)
    ensures CursorOk(res.0)
    ensures res.0.subreddit == m.subreddit
    ensures m.err.Some? ==> res.0.err.Some?
    ensures res.1.Some? && !res.1.value.Quit? ==> res.0.loading
    ensures res.1 == Some(Quit) ==> res.0 == m
    ensures !msg.Key? ==> res.1.None?
  {
    match msg
    case Key(key) => HandleKey(m, key)
    case WindowSize(w, h) => (m.(width := w, height := h), None)
    case PostsLoaded(posts, page, err) =>
      var m' := m.(loading := false);
      if err.Some? then (m'.(err := err), None)
      else (m'.(posts := posts, page := page, cursor := 0), None)
    case CommentsLoaded(comments, err) =>
      var m' := m.(loading := false);
      if err.Some? then (m'.(err := err), None)
      else (m'.(comments := comments), None)
    case Other => (m, None)
  }

  /** A completion event that reports success. */
  predicate SuccessfulLoad(msg: Msg) {
    (msg.PostsLoaded? || msg.CommentsLoaded?) && msg.err.None?
  }

  /**
   The update step with the evidently intended recovery: a successful load
   clears a recorded error, so that the retry the error overlay offers can
   dismiss it. In every other respect it is `Update`.
   */
  function UpdateRecovering(m: Model, msg: Msg): (res: (Model, Option<Cmd>))
    requires CursorOk(m)
    ensures CursorOk(res.0)
    ensures res.1 == Update(m, msg).1
    ensures res.0.(err := None) == Update(m, msg).0.(err := None)
    ensures SuccessfulLoad(msg) ==> res.0.err.None?
    ensures !SuccessfulLoad(msg) ==> res.0 == Update(m, msg).0
  {
    var res := Update(m, msg);
    if SuccessfulLoad(msg) then (res.0.(err := None), res.1) else res
  }

  /** The state after a sequence of events, applied one at a time. */
  function Run(m: Model, msgs: seq<Msg>): (r: Model)
    requires CursorOk(m)
    ensures CursorOk(r)
    ensures r.subreddit == m.subreddit
    decreases |msgs|
  {
    if |msgs| == 0 then m else Run(Update(m, msgs[0]).0, msgs[1..])
  }

  /** The content service's answer to a post listing request. */
  datatype PostsReply = PostsOk(posts: seq<RawPost>, after: string) | PostsFailed(err: Error)

  /** The content service's answer to a comments request. */
  datatype CommentsReply = CommentsOk(forest: seq<RawComment>) | CommentsFailed(err: Error)

  /**
   The completion event of a posts command. A failed request adds no posts
   and carries an empty token; a fetch-more puts the newly fetched page (none,
   on failure) after the post list captured when the command was issued.
   */
  function PostsDelivered(cmd: Cmd, reply: PostsReply): (msg: Msg)
    requires cmd.FetchPosts? || cmd.FetchMorePosts?
    ensures msg.PostsLoaded?
    ensures reply.PostsFailed? ==> msg.err == Some(reply.err) && msg.page.after == ""
    ensures reply.PostsOk? ==> msg.err.None? && msg.page.after == reply.after
    ensures var prior := if cmd.FetchMorePosts? then cmd.prior else [];
            var fetched := if reply.PostsOk? then reply.posts else [];
            && |msg.posts| == |prior| + |fetched|
            && msg.posts[..|prior|] == prior
            && forall i :: 0 <= i < |fetched| ==> msg.posts[|prior| + i] == MapPost(fetched[i])
  {
    var fetched := if reply.PostsOk? then MapPosts(reply.posts) else [];
    var page := PageInfo(if reply.PostsOk? then reply.after else "");
    var err := if reply.PostsFailed? then Some(reply.err) else None;
    match cmd
    case FetchPosts(_, _, _, _) => PostsLoaded(fetched, page, err)
    case FetchMorePosts(_, _, _, _, prior) => PostsLoaded(prior + fetched, page, err)
  }

  /**
   The completion event of a comments command: the reply forest flattened
   from depth 0, from which the forest can be rebuilt and whose depth-0
   entries are the top-level comments.
   */
  function CommentsDelivered(cmd: Cmd, reply: CommentsReply): (msg: Msg)
    requires cmd.FetchComments?
    ensures msg.CommentsLoaded?
    ensures reply.CommentsFailed? ==> msg.err == Some(reply.err) && msg.comments == []
    ensures reply.CommentsOk? ==>
      && msg.err.None?
      && |msg.comments| == ForestSize(reply.forest)
      && Unflatten(msg.comments, 0) == (reply.forest, [])
      && AtDepth(msg.comments, 0) == Roots(reply.forest, 0)
  {
    match reply
    case CommentsOk(forest) =>
      var flat := Flatten(forest, 0);
      FlattenLength(forest, 0);
      UnflattenFlatten(forest, 0, []);
      assert flat + [] == flat;
      FlattenTopLevel(forest, 0);
      CommentsLoaded(flat, None)
    case CommentsFailed(e) => CommentsLoaded([], Some(e))
  }
}

=== FILE: app_lemmas.dfy ===
/**
 Properties of the update step (internal/app/update.go) and of the
 initial state (internal/app/model.go), each for every state that keeps
 the cursor in range.
 */
module AppLemmas {
  import opened Wrappers
  import opened Reddit
  import opened App
  import Screens
  import Keys

  /** The initial state: post list of the default community, nothing loaded, no error. */
  lemma InitialState()
    ensures var m := NewModel();
            && m.screen == Screens.PostList
            && m.subreddit == "reddevils"
            && m.posts == [] && m.comments == [] && m.cursor == 0
            && !m.loading && m.err == None && m.page.after == ""
            && CursorOk(m)
            && Init(m) == FetchPosts("reddevils", "hot", "", 25)
  {
  }

  /** A quit key quits from any screen and leaves the state unchanged. */
  lemma QuitKeyQuits(m: Model, key: string)
    requires CursorOk(m)
    requires Keys.Contains(Keys.Quit, key)
    ensures Update(m, Key(key)) == (m, Some(Quit))
  {
  }

  /** Up moves the cursor one row up unless it is on the first row; nothing else changes. */
  lemma UpKey(m: Model, key: string)
    requires CursorOk(m) && m.screen == Screens.PostList
    requires Keys.Contains(Keys.Up, key)
    ensures Update(m, Key(key)) == (m.(cursor := if m.cursor > 0 then m.cursor - 1 else m.cursor), None)
  {
    Keys.QuitDisjointFromOthers();
  }

  /** Down moves the cursor one row down unless it is on the last row; nothing else changes. */
  lemma DownKey(m: Model, key: string)
    requires CursorOk(m) && m.screen == Screens.PostList
    requires Keys.Contains(Keys.Down, key)
    ensures Update(m, Key(key)) == (m.(cursor := if m.cursor < |m.posts| - 1 then m.cursor + 1 else m.cursor), None)
  {
    Keys.QuitDisjointFromOthers();
    Keys.PostListKeysDisjoint();
  }

  /** Enter opens the post detail exactly when there is a post. */
  lemma EnterKey(m: Model, key: string)
    requires CursorOk(m) && m.screen == Screens.PostList
    requires Keys.Contains(Keys.Enter, key)
    ensures Update(m, Key(key)) == (if |m.posts| > 0 then m.(screen := Screens.PostDetail) else m, None)
  {
    Keys.QuitDisjointFromOthers();
    Keys.PostListKeysDisjoint();
  }

  /**
   Next page fetches more, capturing the current posts, only when there is
   a next page and nothing is loading; otherwise nothing happens.
   */
  lemma NextPageKey(m: Model, key: string)
    requires CursorOk(m) && m.screen == Screens.PostList
    requires Keys.Contains(Keys.NextPage, key)
    ensures m.page.after != "" && !m.loading ==>
      Update(m, Key(key)) == (m.(loading := true), Some(FetchMorePosts(m.subreddit, "hot", m.page.after, 25, m.posts)))
    ensures !(m.page.after != "" && !m.loading) ==> Update(m, Key(key)) == (m, None)
  {
    Keys.QuitDisjointFromOthers();
    Keys.PostListKeysDisjoint();
  }

  /** Refresh always reloads the first page, even while loading, and forgets the next-page token. */
  lemma RefreshKey(m: Model, key: string)
    requires CursorOk(m) && m.screen == Screens.PostList
    requires Keys.Contains(Keys.Refresh, key)
    ensures Update(m, Key(key)) ==
      (m.(loading := true, page := PageInfo("")), Some(FetchPosts(m.subreddit, "hot", "", 25)))
  {
    Keys.QuitDisjointFromOthers();
    Keys.PostListKeysDisjoint();
  }

  /** Back on the post detail returns to the list. */
  lemma BackFromDetail(m: Model, key: string)
    requires CursorOk(m) && m.screen == Screens.PostDetail
    requires Keys.Contains(Keys.Back, key)
    ensures Update(m, Key(key)) == (m.(screen := Screens.PostList), None)
  {
    Keys.QuitDisjointFromOthers();
  }

  /**
   The comments key on the post detail opens the comments of the selected
   post and fetches them, when there is a post.
   */
  lemma CommentsKey(m: Model, key: string)
    requires CursorOk(m) && m.screen == Screens.PostDetail
    requires Keys.Contains(Keys.Comments, key)
    ensures |m.posts| > 0 ==>
      Update(m, Key(key)) ==
        (m.(screen := Screens.Comments, loading := true), Some(FetchComments(m.subreddit, m.posts[m.cursor].id)))
    ensures |m.posts| == 0 ==> Update(m, Key(key)) == (m, None)
  {
    Keys.QuitDisjointFromOthers();
    Keys.BackCommentsDisjoint();
  }

  /** Back on the comments screen returns to the post detail and drops the comments. */
  lemma BackFromComments(m: Model, key: string)
    requires CursorOk(m) && m.screen == Screens.Comments
    requires Keys.Contains(Keys.Back, key)
    ensures Update(m, Key(key)) == (m.(screen := Screens.PostDetail, comments := []), None)
  {
    Keys.QuitDisjointFromOthers();
  }

  /** A resize records the size and changes nothing else. */
  lemma ResizeOnlyRecordsSize(m: Model, w: int, h: int)
    requires CursorOk(m)
    ensures Update(m, WindowSize(w, h)) == (m.(width := w, height := h), None)
  {
  }

  /**
   A successful posts load stops loading, installs the posts and the page
   and puts the cursor on the first row; screen and error stay as they are.
   */
  lemma PostsLoadedOk(m: Model, posts: seq<Post>, page: PageInfo)
    requires CursorOk(m)
    ensures var m' := Update(m, PostsLoaded(posts, page, None)).0;
            && m' == m.(loading := false, posts := posts, page := page, cursor := 0)
            && m'.screen == m.screen && m'.err == m.err
  {
  }

  /** A failed load stops loading and records the error; the data and the screen stay. */
  lemma LoadFailed(m: Model, msg: Msg)
    requires CursorOk(m)
    requires (msg.PostsLoaded? || msg.CommentsLoaded?) && msg.err.Some?
    ensures var m' := Update(m, msg).0;
            && m' == m.(loading := false, err := msg.err)
            && m'.posts == m.posts && m'.page == m.page && m'.cursor == m.cursor
            && m'.comments == m.comments && m'.screen == m.screen
  {
  }

  /** A successful comments load stops loading and installs the comments. */
  lemma CommentsLoadedOk(m: Model, comments: seq<Comment>)
    requires CursorOk(m)
    ensures Update(m, CommentsLoaded(comments, None)).0 == m.(loading := false, comments := comments)
  {
  }

  /** An error, once set, stays set whatever events follow. */
  lemma {:induction false} ErrorNeverCleared(m: Model, msgs: seq<Msg>)
    requires CursorOk(m) && m.err.Some?
    ensures Run(m, msgs).err.Some?
    decreases |msgs|
  {
    if |msgs| > 0 {
      ErrorNeverCleared(Update(m, msgs[0]).0, msgs[1..]);
    }
  }

  /**
   The posts captured by a fetch-more are a prefix of the posts installed
   when it succeeds, whatever happened between issuing and completion.
   */
  lemma FetchMoreExtends(m: Model, key: string, later: Model, reply: PostsReply)
    requires CursorOk(m) && m.screen == Screens.PostList
    requires Keys.Contains(Keys.NextPage, key) && m.page.after != "" && !m.loading
    requires CursorOk(later) && reply.PostsOk?
    ensures var cmd := Update(m, Key(key)).1;
            && cmd.Some? && cmd.value.FetchMorePosts?
            && var m' := Update(later, PostsDelivered(cmd.value, reply)).0;
               && m'.posts == m.posts + MapPosts(reply.posts)
               && m'.posts[..|m.posts|] == m.posts
               && m'.page.after == reply.after
               && m'.cursor == 0
  {
    NextPageKey(m, key);
    var cmd := FetchMorePosts(m.subreddit, "hot", m.page.after, 25, m.posts);
    var msg := PostsDelivered(cmd, reply);
    assert msg.posts == m.posts + MapPosts(reply.posts);
  }

  /** A refresh, once it succeeds, replaces the posts with the first page rather than appending. */
  lemma RefreshReplaces(m: Model, key: string, later: Model, reply: PostsReply)
    requires CursorOk(m) && m.screen == Screens.PostList
    requires Keys.Contains(Keys.Refresh, key)
    requires CursorOk(later) && reply.PostsOk?
    ensures var res := Update(m, Key(key));
            && res.0.page.after == ""
            && res.1.Some? && res.1.value.FetchPosts? && res.1.value.after == ""
            && var m' := Update(later, PostsDelivered(res.1.value, reply)).0;
               && m'.posts == MapPosts(reply.posts)
               && m'.page.after == reply.after
               && m'.cursor == 0
  {
    RefreshKey(m, key);
  }

  /**
   Thirty posts in pages of 25: the first load gives 25 posts and a token,
   the next page gives the other 5 and no token, the list then holds all 30
   and a further next-page key does nothing.
   */
  lemma PaginationScenario(first: seq<RawPost>, second: seq<RawPost>, token: string, key: string)
    requires |first| == 25 && |second| == 5 && token != ""
    requires Keys.Contains(Keys.NextPage, key)
    ensures var m0 := NewModel();
            var m1 := Update(m0, PostsDelivered(Init(m0), PostsOk(first, token))).0;
            var (m2, c2) := Update(m1, Key(key));
            && |m1.posts| == 25 && m1.page.after == token
            && c2.Some? && c2.value.FetchMorePosts? && c2.value.after == token
            && var m3 := Update(m2, PostsDelivered(c2.value, PostsOk(second, ""))).0;
               && |m3.posts| == 30
               && m3.posts == MapPosts(first) + MapPosts(second)
               && Update(m3, Key(key)) == (m3, None)
  {
    var m0 := NewModel();
    var m1 := Update(m0, PostsDelivered(Init(m0), PostsOk(first, token))).0;
    NextPageKey(m1, key);
    var (m2, c2) := Update(m1, Key(key));
    var m3 := Update(m2, PostsDelivered(c2.value, PostsOk(second, ""))).0;
    NextPageKey(m3, key);
  }
}

=== FILE: keys.dfy ===
/**
 Key bindings (internal/ui/keys.go): each action is bound to a small
 ordered set of key names, and a key triggers the action when the set
 contains it.
 */
module Keys {

  /** The key names bound to one action, in declaration order. */
  type KeySet = seq<string>

  /** Whether `key` is one of the names in `k`, scanning left to right. */
  function Contains(k: KeySet, key: string): (b: bool)
    ensures b <==> exists i :: 0 <= i < |k| && k[i] == key
    ensures |k| == 0 ==> !b
  {
    if |k| == 0 then false
    else if k[0] == key then true
    else Contains(k[1..], key)
  }

  const Quit: KeySet := ["q", "ctrl+c"]
  const Up: KeySet := ["k", "up"]
  const Down: KeySet := ["j", "down"]
  const Left: KeySet := ["h", "left"]
  const Right: KeySet := ["l", "right"]
  const Enter: KeySet := ["enter", " "]
  const Back: KeySet := ["esc", "backspace"]
  const NextPage: KeySet := ["pgdown", "ctrl+d"]
  const PrevPage: KeySet := ["pgup", "ctrl+u"]
  const Refresh: KeySet := ["r"]
  const Comments: KeySet := ["c"]
  const Help: KeySet := ["?"]

  /** No key triggers both actions. */
  ghost predicate Disjoint(a: KeySet, b: KeySet) {
    forall key :: Contains(a, key) ==> !Contains(b, key)
  }

  /** Two key sets without a common name are disjoint. */
  lemma DisjointWhenNoCommonName(a: KeySet, b: KeySet)
    requires forall i, j :: 0 <= i < |a| && 0 <= j < |b| ==> a[i] != b[j]
    ensures Disjoint(a, b)
  {
  }

  /** The quit action is bound to exactly "q" and "ctrl+c". */
  lemma QuitKeys(key: string)
    ensures Contains(Quit, key) <==> key == "q" || key == "ctrl+c"
  {
  }

  /** The global quit check never shadows another binding. */
  lemma QuitDisjointFromOthers()
    ensures Disjoint(Quit, Up) && Disjoint(Quit, Down) && Disjoint(Quit, Left)
    ensures Disjoint(Quit, Right) && Disjoint(Quit, Enter) && Disjoint(Quit, Back)
    ensures Disjoint(Quit, NextPage) && Disjoint(Quit, PrevPage) && Disjoint(Quit, Refresh)
    ensures Disjoint(Quit, Comments) && Disjoint(Quit, Help)
  {
    DisjointWhenNoCommonName(Quit, Up);
    DisjointWhenNoCommonName(Quit, Down);
    DisjointWhenNoCommonName(Quit, Left);
    DisjointWhenNoCommonName(Quit, Right);
    DisjointWhenNoCommonName(Quit, Enter);
    DisjointWhenNoCommonName(Quit, Back);
    DisjointWhenNoCommonName(Quit, NextPage);
    DisjointWhenNoCommonName(Quit, PrevPage);
    DisjointWhenNoCommonName(Quit, Refresh);
    DisjointWhenNoCommonName(Quit, Comments);
    DisjointWhenNoCommonName(Quit, Help);
  }

  /** The post-list actions are pairwise disjoint, so the order of the checks does not matter. */
  lemma PostListKeysDisjoint()
    ensures Disjoint(Up, Down) && Disjoint(Up, Enter) && Disjoint(Up, NextPage) && Disjoint(Up, Refresh)
    ensures Disjoint(Down, Enter) && Disjoint(Down, NextPage) && Disjoint(Down, Refresh)
    ensures Disjoint(Enter, NextPage) && Disjoint(Enter, Refresh)
    ensures Disjoint(NextPage, Refresh)
  {
    DisjointWhenNoCommonName(Up, Down);
    DisjointWhenNoCommonName(Up, Enter);
    DisjointWhenNoCommonName(Up, NextPage);
    DisjointWhenNoCommonName(Up, Refresh);
    DisjointWhenNoCommonName(Down, Enter);
    DisjointWhenNoCommonName(Down, NextPage);
    DisjointWhenNoCommonName(Down, Refresh);
    DisjointWhenNoCommonName(Enter, NextPage);
    DisjointWhenNoCommonName(Enter, Refresh);
    DisjointWhenNoCommonName(NextPage, Refresh);
  }

  /** The two post-detail actions are disjoint. */
  lemma BackCommentsDisjoint()
    ensures Disjoint(Back, Comments)
  {
    DisjointWhenNoCommonName(Back, Comments);
  }
}

=== FILE: reddit.dfy ===
/**
 The application-level records (internal/reddit/models.go) and the mapper
 that builds them from the remote client's shapes (internal/reddit/mapping.go).
 */
module Reddit {
  import opened Seqs

  /** An instant in time, carried opaquely. */
  datatype Timestamp = Timestamp(unixNanos: int)

  /**
   Conversion of an instant to the UTC location. Instants carry no
   location in this model, so the conversion keeps the instant.
   */
  function ToUTC(t: Timestamp): Timestamp {
    t
  }

  /** A submission as the remote client reports it (the fields the mapper reads). */
  datatype RawPost = RawPost(
    id: string,
    title: string,
    author: string,
    subredditName: string,
    url: string,
    body: string,
    score: int,
    numberOfComments: int,
    created: Timestamp,
    nsfw: bool,
    isSelfPost: bool)

  /** A comment as the remote client reports it, with its nested replies. */
  datatype RawComment = RawComment(
    id: string,
    author: string,
    body: string,
    score: int,
    created: Timestamp,
    replies: seq<RawComment>)

  /** The application's post record. */
  datatype Post = Post(
    id: string,
    title: string,
    author: string,
    subreddit: string,
    url: string,
    selfText: string,
    score: int,
    numComments: int,
    createdUTC: Timestamp,
    isNSFW: bool,
    isSelf: bool,
    thumbnail: string)

  /** The application's comment record: one entry of a flattened reply tree. */
  datatype Comment = Comment(
    id: string,
    author: string,
    body: string,
    score: int,
    createdUTC: Timestamp,
    depth: nat)

  /** The remote post a mapped post was projected from (the inverse of MapPost). */
  function SourceOfPost(p: Post): RawPost {
    RawPost(p.id, p.title, p.author, p.subreddit, p.url, p.selfText, p.score,
            p.numComments, p.createdUTC, p.isNSFW, p.isSelf)
  }

  /**
   Field-by-field projection of a remote post. Every remote field lands in
   exactly one field of the result, so the remote post can be recovered;
   the thumbnail is never filled in.
   */
  function MapPost(p: RawPost): (r: Post)
    ensures SourceOfPost(r) == p
    ensures r.thumbnail == ""
  {
    Post(
      id := p.id,
      title := p.title,
      author := p.author,
      subreddit := p.subredditName,
      url := p.url,
      selfText := p.body,
      score := p.score,
      numComments := p.numberOfComments,
      createdUTC := ToUTC(p.created),
      isNSFW := p.nsfw,
      isSelf := p.isSelfPost,
      thumbnail := "")
  }

  /** Two remote posts that map to the same post are the same remote post. */
  lemma MapPostInjective(a: RawPost, b: RawPost)
    requires MapPost(a) == MapPost(b)
    ensures a == b
  {
    assert a == SourceOfPost(MapPost(a));
  }

  /** Maps a page of remote posts, position by position. */
  function MapPosts(posts: seq<RawPost>): (r: seq<Post>)
    ensures |r| == |posts|
    ensures forall i :: 0 <= i < |posts| ==> r[i] == MapPost(posts[i])
  {
    if |posts| == 0 then []
    else [MapPost(posts[0])] + MapPosts(posts[1..])
  }

  /** Projection of a remote comment, annotated with its nesting depth. */
  function MapComment(c: RawComment, depth: nat): (r: Comment)
    ensures r.depth == depth
    ensures Rebuild(r, c.replies) == c
  {
    Comment(
      id := c.id,
      author := c.author,
      body := c.body,
      score := c.score,
      createdUTC := ToUTC(c.created),
      depth := depth)
  }

  /** The remote comment a flattened entry came from, given its replies. */
  function Rebuild(e: Comment, replies: seq<RawComment>): RawComment {
    RawComment(e.id, e.author, e.body, e.score, e.createdUTC, replies)
  }

  /**
   Pre-order flattening of a reply forest: each comment at `depth`, then
   (when it has any) its replies flattened at `depth + 1`, siblings in
   their original order.
   */
  function Flatten(comments: seq<RawComment>, depth: nat): (r: seq<Comment>)
    ensures |r| >= |comments|
    ensures |comments| > 0 ==> r[0] == MapComment(comments[0], depth)
    decreases comments
  {
    if |comments| == 0 then []
    else
      var c := comments[0];
      var here := [MapComment(c, depth)] + (if |c.replies| > 0 then Flatten(c.replies, depth + 1) else []);
      here + Flatten(comments[1..], depth)
  }

  /** The number of comments in a reply tree. */
  function Size(c: RawComment): nat
    decreases c
  {
    1 + ForestSize(c.replies)
  }

  /** The number of comments in a reply forest. */
  function ForestSize(comments: seq<RawComment>): nat
    decreases comments
  {
    if |comments| == 0 then 0 else Size(comments[0]) + ForestSize(comments[1..])
  }

  /** The nesting height of a reply tree (a comment without replies has height 1). */
  function Height(c: RawComment): nat
    decreases c
  {
    1 + ForestHeight(c.replies)
  }

  /** The largest height of the trees of a forest (0 for an empty forest). */
  function ForestHeight(comments: seq<RawComment>): nat
    decreases comments
  {
    if |comments| == 0 then 0
    else
      var h := Height(comments[0]);
      var t := ForestHeight(comments[1..]);
      if h < t then t else h
  }

  /** The forest's top-level comments projected at `depth`, in order. */
  function Roots(comments: seq<RawComment>, depth: nat): (r: seq<Comment>)
    ensures |r| == |comments|
    ensures forall i :: 0 <= i < |r| ==> r[i] == MapComment(comments[i], depth)
  {
    if |comments| == 0 then [] else [MapComment(comments[0], depth)] + Roots(comments[1..], depth)
  }

  /** The entries of a flattened sequence whose depth is exactly `depth`, in order. */
  function AtDepth(entries: seq<Comment>, depth: nat): (r: seq<Comment>)
    ensures |r| <= |entries|
    ensures forall i :: 0 <= i < |r| ==> r[i].depth == depth && r[i] in entries
  {
    if |entries| == 0 then []
    else (if entries[0].depth == depth then [entries[0]] else []) + AtDepth(entries[1..], depth)
  }

  /** An empty forest flattens to nothing. */
  lemma FlattenEmpty(depth: nat)
    ensures Flatten([], depth) == []
  {
  }

  /** A single comment comes immediately before the flattening of its replies. */
  lemma FlattenSingle(c: RawComment, depth: nat)
    ensures Flatten([c], depth) == [MapComment(c, depth)] + Flatten(c.replies, depth + 1)
  {
    assert [c][1..] == [];
  }

  /** Siblings keep their input order: flattening distributes over concatenation of forests. */
  lemma {:induction false} FlattenAppend(a: seq<RawComment>, b: seq<RawComment>, depth: nat)
    ensures Flatten(a + b, depth) == Flatten(a, depth) + Flatten(b, depth)
    decreases |a|
  {
    if |a| == 0 {
      assert a + b == b;
    } else {
      assert (a + b)[0] == a[0];
      assert (a + b)[1..] == a[1..] + b;
      FlattenAppend(a[1..], b, depth);
    }
  }

  /** The flattening has exactly one entry per comment of the forest. */
  lemma {:induction false} FlattenLength(comments: seq<RawComment>, depth: nat)
    ensures |Flatten(comments, depth)| == ForestSize(comments)
    decreases comments
  {
    if |comments| > 0 {
      FlattenLength(comments[0].replies, depth + 1);
      FlattenLength(comments[1..], depth);
    }
  }

  /**
   Every entry sits at least at the starting depth and less than the
   starting depth plus the forest's height.
   */
  lemma {:induction false} FlattenDepths(comments: seq<RawComment>, depth: nat)
    ensures forall i :: 0 <= i < |Flatten(comments, depth)| ==>
      depth <= Flatten(comments, depth)[i].depth < depth + ForestHeight(comments)
    decreases comments
  {
    if |comments| > 0 {
      var c := comments[0];
      FlattenDepths(c.replies, depth + 1);
      FlattenDepths(comments[1..], depth);
    }
  }

  /** Filtering by depth distributes over concatenation. */
  lemma {:induction false} AtDepthAppend(a: seq<Comment>, b: seq<Comment>, depth: nat)
    ensures AtDepth(a + b, depth) == AtDepth(a, depth) + AtDepth(b, depth)
    decreases |a|
  {
    if |a| == 0 {
      assert a + b == b;
    } else {
      assert (a + b)[0] == a[0];
      assert (a + b)[1..] == a[1..] + b;
      AtDepthAppend(a[1..], b, depth);
    }
  }

  /** A sequence with no entry at `depth` filters to nothing. */
  lemma {:induction false} AtDepthNone(entries: seq<Comment>, depth: nat)
    requires forall i :: 0 <= i < |entries| ==> entries[i].depth != depth
    ensures AtDepth(entries, depth) == []
    decreases |entries|
  {
    if |entries| > 0 {
      AtDepthNone(entries[1..], depth);
    }
  }

  /**
   The entries at the starting depth are exactly the top-level comments,
   in order: replies never appear at the top level.
   */
  lemma {:induction false} FlattenTopLevel(comments: seq<RawComment>, depth: nat)
    ensures AtDepth(Flatten(comments, depth), depth) == Roots(comments, depth)
    decreases |comments|
  {
    if |comments| > 0 {
      var c := comments[0];
      var kids := Flatten(c.replies, depth + 1);
      var rest := Flatten(comments[1..], depth);
      FlattenDepths(c.replies, depth + 1);
      AtDepthNone(kids, depth);
      FlattenTopLevel(comments[1..], depth);
      FlattenSingle(c, depth);
      FlattenAppend([c], comments[1..], depth);
      assert [c] + comments[1..] == comments;
      AtDepthAppend([MapComment(c, depth)] + kids, rest, depth);
      AtDepthAppend([MapComment(c, depth)], kids, depth);
      assert AtDepth([MapComment(c, depth)], depth) == [MapComment(c, depth)];
    }
  }

  /**
   Rebuilds a reply forest from a depth-annotated pre-order sequence:
   reads consecutive entries at `depth` as siblings, each followed by its
   replies one level deeper, and returns the forest together with the
   unread remainder, which is a suffix of the input.
   */
  function Unflatten(entries: seq<Comment>, depth: nat): (r: (seq<RawComment>, seq<Comment>))
    ensures |r.1| <= |entries|
    decreases |entries|
  {
    if |entries| == 0 || entries[0].depth != depth then ([], entries)
    else
      var inner := Unflatten(entries[1..], depth + 1);
      var outer := Unflatten(inner.1, depth);
      ([Rebuild(entries[0], inner.0)] + outer.0, outer.1)
  }

  /** What Unflatten leaves unread is the end of its input, untouched. */
  lemma {:induction false} UnflattenRemainder(entries: seq<Comment>, depth: nat)
    ensures EndsWith(entries, Unflatten(entries, depth).1)
    decreases |entries|
  {
    if |entries| > 0 && entries[0].depth == depth {
      var inner := Unflatten(entries[1..], depth + 1);
      var outer := Unflatten(inner.1, depth);
      UnflattenRemainder(entries[1..], depth + 1);
      UnflattenRemainder(inner.1, depth);
      assert EndsWith(entries, entries[1..]);
      EndsWithTrans(entries, entries[1..], inner.1);
      EndsWithTrans(entries, inner.1, outer.1);
      UnflattenStep(entries, depth, inner.0, inner.1, outer.0, outer.1);
    }
  }

  /** A non-empty forest flattens to its first comment, that comment's replies, then the rest. */
  lemma FlattenCons(comments: seq<RawComment>, depth: nat)
    requires |comments| > 0
    ensures Flatten(comments, depth) ==
      [MapComment(comments[0], depth)] + Flatten(comments[0].replies, depth + 1) + Flatten(comments[1..], depth)
  {
  }

  /** One step of Unflatten on an entry at the expected depth. */
  lemma UnflattenStep(entries: seq<Comment>, depth: nat, replies: seq<RawComment>, rest: seq<Comment>,
                      siblings: seq<RawComment>, rest': seq<Comment>)
    requires |entries| > 0 && entries[0].depth == depth
    requires Unflatten(entries[1..], depth + 1) == (replies, rest)
    requires Unflatten(rest, depth) == (siblings, rest')
    ensures Unflatten(entries, depth) == ([Rebuild(entries[0], replies)] + siblings, rest')
  {
  }

  /** A flattened forest followed by a tail shallower than `depth` starts no deeper than `depth`. */
  lemma FlattenThenShallow(comments: seq<RawComment>, depth: nat, tail: seq<Comment>)
    requires |tail| == 0 || tail[0].depth < depth
    ensures var s := Flatten(comments, depth) + tail;
            |s| == 0 || s[0].depth < depth + 1
  {
    if |comments| > 0 {
      FlattenCons(comments, depth);
    }
  }

  /**
   The shape Unflatten sees when reading a flattened non-empty forest
   followed by a tail: the first comment, then its replies and the rest.
   */
  lemma FlattenShape(comments: seq<RawComment>, depth: nat, tail: seq<Comment>)
    requires |comments| > 0
    ensures var s := Flatten(comments, depth) + tail;
            && |s| > 0
            && s[0] == MapComment(comments[0], depth)
            && s[1..] == Flatten(comments[0].replies, depth + 1) + (Flatten(comments[1..], depth) + tail)
  {
    FlattenCons(comments, depth);
    ConsShape(MapComment(comments[0], depth), Flatten(comments[0].replies, depth + 1),
              Flatten(comments[1..], depth), tail);
  }

  /** Reassociation of a sequence built from a first element and three parts. */
  lemma ConsShape<T>(x: T, a: seq<T>, b: seq<T>, c: seq<T>)
    ensures var s := [x] + a + b + c;
            |s| > 0 && s[0] == x && s[1..] == a + (b + c)
  {
    var s := [x] + a + b + c;
    assert s == [x] + (a + (b + c));
  }

  /**
   Flattening loses nothing: the depth annotation alone determines the
   reply forest, which Unflatten recovers, leaving any shallower tail unread.
   */
  lemma {:induction false} UnflattenFlatten(comments: seq<RawComment>, depth: nat, tail: seq<Comment>)
    requires |tail| == 0 || tail[0].depth < depth
    ensures Unflatten(Flatten(comments, depth) + tail, depth) == (comments, tail)
    decreases comments
  {
    if |comments| == 0 {
      assert Flatten(comments, depth) + tail == tail;
    } else {
      FlattenThenShallow(comments[1..], depth, tail);
      UnflattenFlatten(comments[0].replies, depth + 1, Flatten(comments[1..], depth) + tail);
      UnflattenFlatten(comments[1..], depth, tail);
      UnflattenFlattenCons(comments, depth, tail);
    }
  }

  /** The inductive step of `UnflattenFlatten`: the first comment's replies, then its siblings. */
  lemma UnflattenFlattenCons(comments: seq<RawComment>, depth: nat, tail: seq<Comment>)
    requires |comments| > 0
    requires Unflatten(Flatten(comments[0].replies, depth + 1) + (Flatten(comments[1..], depth) + tail), depth + 1)
             == (comments[0].replies, Flatten(comments[1..], depth) + tail)
    requires Unflatten(Flatten(comments[1..], depth) + tail, depth) == (comments[1..], tail)
    ensures Unflatten(Flatten(comments, depth) + tail, depth) == (comments, tail)
  {
    var c := comments[0];
    var s := Flatten(comments, depth) + tail;
    var tail' := Flatten(comments[1..], depth) + tail;
    FlattenShape(comments, depth, tail);
    UnflattenStep(s, depth, c.replies, tail', comments[1..], tail);
    assert [c] + comments[1..] == comments;
  }

  /** Different forests flatten differently. */
  lemma FlattenInjective(a: seq<RawComment>, b: seq<RawComment>, depth: nat)
    requires Flatten(a, depth) == Flatten(b, depth)
    ensures a == b
  {
    UnflattenFlatten(a, depth, []);
    UnflattenFlatten(b, depth, []);
    assert Flatten(a, depth) + [] == Flatten(a, depth);
    assert Flatten(b, depth) + [] == Flatten(b, depth);
  }

  /** A comment whose replies are two comments without replies of their own. */
  predicate TwoLeafReplies(c: RawComment) {
    |c.replies| == 2 && |c.replies[0].replies| == 0 && |c.replies[1].replies| == 0
  }

  /** Such a comment flattens to itself followed by its two replies one level deeper. */
  lemma FlattenTwoLeafThread(c: RawComment, depth: nat)
    requires TwoLeafReplies(c)
    ensures Flatten([c], depth) ==
      [MapComment(c, depth), MapComment(c.replies[0], depth + 1), MapComment(c.replies[1], depth + 1)]
  {
    FlattenSingle(c, depth);
    FlattenSingle(c.replies[0], depth + 1);
    FlattenSingle(c.replies[1], depth + 1);
    FlattenAppend([c.replies[0]], [c.replies[1]], depth + 1);
    assert c.replies == [c.replies[0]] + [c.replies[1]];
  }

  /** A forest of three comments flattens to the three flattened threads in order. */
  lemma FlattenThree(a: RawComment, b: RawComment, c: RawComment, depth: nat)
    ensures Flatten([a, b, c], depth) == Flatten([a], depth) + Flatten([b], depth) + Flatten([c], depth)
  {
    FlattenAppend([a], [b], depth);
    FlattenAppend([a, b], [c], depth);
    assert [a] + [b] == [a, b];
    assert [a, b] + [c] == [a, b, c];
  }

  /**
   Three top-level comments with two replies each give nine entries: each
   comment at depth 0 followed by its replies at depth 1.
   */
  lemma ThreeThreadsScenario(a: RawComment, b: RawComment, c: RawComment)
    requires TwoLeafReplies(a) && TwoLeafReplies(b) && TwoLeafReplies(c)
    ensures Flatten([a, b, c], 0) == [
      MapComment(a, 0), MapComment(a.replies[0], 1), MapComment(a.replies[1], 1),
      MapComment(b, 0), MapComment(b.replies[0], 1), MapComment(b.replies[1], 1),
      MapComment(c, 0), MapComment(c.replies[0], 1), MapComment(c.replies[1], 1)]
  {
    var ta := [MapComment(a, 0), MapComment(a.replies[0], 1), MapComment(a.replies[1], 1)];
    var tb := [MapComment(b, 0), MapComment(b.replies[0], 1), MapComment(b.replies[1], 1)];
    var tc := [MapComment(c, 0), MapComment(c.replies[0], 1), MapComment(c.replies[1], 1)];
    calc {
      Flatten([a, b, c], 0);
      { FlattenThree(a, b, c, 0); }
      Flatten([a], 0) + Flatten([b], 0) + Flatten([c], 0);
      { FlattenTwoLeafThread(a, 0); FlattenTwoLeafThread(b, 0); FlattenTwoLeafThread(c, 0); }
      ta + tb + tc;
      { ThreeTriples(ta[0], ta[1], ta[2], tb[0], tb[1], tb[2], tc[0], tc[1], tc[2]); }
      [ta[0], ta[1], ta[2], tb[0], tb[1], tb[2], tc[0], tc[1], tc[2]];
    }
  }

  /** Three three-entry sequences one after another are the nine entries in order. */
  lemma ThreeTriples(x1: Comment, x2: Comment, x3: Comment, x4: Comment, x5: Comment, x6: Comment,
                     x7: Comment, x8: Comment, x9: Comment)
    ensures [x1, x2, x3] + [x4, x5, x6] + [x7, x8, x9] == [x1, x2, x3, x4, x5, x6, x7, x8, x9]
  {
  }
}

=== FILE: screen.dfy ===
/**
 The screens of the terminal interface (internal/state/screen.go).
 In the program a screen is a plain integer, so values outside the five
 declared ones are representable and have their own printed name.
 */
module Screens {

  /** A screen is an integer enumeration, as in the program. */
  type Screen = int

  const PostList: Screen := 0
  const PostDetail: Screen := 1
  const Comments: Screen := 2
  const SubredditList: Screen := 3
  const Help: Screen := 4

  /** True of the five declared screen values. */
  predicate Declared(s: Screen) {
    PostList <= s <= Help
  }

  /** The printed names of the declared screens, indexed by screen value. */
  const DeclaredNames: seq<string> := ["posts", "post", "comments", "subreddits", "help"]

  /** The printed name of a screen: its entry in the table, or "unknown" for any other value. */
  function Name(s: Screen): (r: string)
    ensures Declared(s) ==> r == DeclaredNames[s]
    ensures !Declared(s) ==> r == "unknown"
    ensures r == "unknown" <==> !Declared(s)
  {
    if s == PostList then "posts"
    else if s == PostDetail then "post"
    else if s == Comments then "comments"
    else if s == SubredditList then "subreddits"
    else if s == Help then "help"
    else "unknown"
  }

  /** No two declared screens print the same name. */
  lemma NameInjective(a: Screen, b: Screen)
    requires Declared(a) && Declared(b)
    requires Name(a) == Name(b)
    ensures a == b
  {
  }
}

=== FILE: seqs.dfy ===
/**
 Prefixes and suffixes of sequences, shared by the comment mapper (the
 unread remainder of a reader) and the renderer (the parts of a screen).
 */
module Seqs {

  /** `p` is a prefix of `s`. */
  predicate StartsWith<T(==)>(s: seq<T>, p: seq<T>) {
    |p| <= |s| && s[..|p|] == p
  }

  /** `p` is a suffix of `s`. */
  predicate EndsWith<T(==)>(s: seq<T>, p: seq<T>) {
    |p| <= |s| && s[|s| - |p|..] == p
  }

  lemma StartsWithConcat<T>(a: seq<T>, b: seq<T>)
    ensures StartsWith(a + b, a)
  {
    assert (a + b)[..|a|] == a;
  }

  lemma EndsWithConcat<T>(a: seq<T>, b: seq<T>)
    ensures EndsWith(a + b, b)
  {
    assert (a + b)[|a + b| - |b|..] == b;
  }

  /** A prefix of a prefix is a prefix. */
  lemma StartsWithTrans<T>(a: seq<T>, b: seq<T>, c: seq<T>)
    requires StartsWith(a, b) && StartsWith(b, c)
    ensures StartsWith(a, c)
  {
    assert b[..|c|] == a[..|c|];
  }

  /** A suffix of a suffix is a suffix. */
  lemma EndsWithTrans<T>(a: seq<T>, b: seq<T>, c: seq<T>)
    requires EndsWith(a, b) && EndsWith(b, c)
    ensures EndsWith(a, c)
  {
    assert b[|b| - |c|..] == a[|a| - |c|..];
  }

  /** A sequence built from three parts starts with the first, ends with the last, and continues with the other two. */
  lemma ThreeParts<T>(a: seq<T>, b: seq<T>, c: seq<T>)
    ensures StartsWith(a + b + c, a) && EndsWith(a + b + c, c)
    ensures (a + b + c)[|a|..] == b + c
  {
    assert (a + b + c)[..|a|] == a;
    assert (a + b + c)[|a| + |b|..] == c;
    assert (a + b + c)[|a|..] == b + c;
  }
}

=== FILE: text.dfy ===
/**
 Text helpers of the renderer (internal/app/view.go): splitting on and
 joining with newlines, fixed-width hard wrapping, truncation with an
 ellipsis, and decimal printing of integers. Strings are sequences of
 characters, one character per byte of the program's strings.
 */
module Text {

  /** Splits on every newline; an empty string or a string without newlines is one line. */
  function Split(s: string): (r: seq<string>)
    ensures |r| >= 1
    ensures forall i :: 0 <= i < |r| ==> '\n' !in r[i]
    decreases |s|
  {
    if |s| == 0 then [""]
    else if s[0] == '\n' then [""] + Split(s[1..])
    else
      var t := Split(s[1..]);
      [[s[0]] + t[0]] + t[1..]
  }

  /** Joins lines with a newline between consecutive ones. */
  function Join(lines: seq<string>): string
    requires |lines| >= 1
    decreases |lines|
  {
    if |lines| == 1 then lines[0] else lines[0] + "\n" + Join(lines[1..])
  }

  /** Joining the pieces of a split gives back the string. */
  lemma {:induction false} JoinSplit(s: string)
    ensures Join(Split(s)) == s
    decreases |s|
  {
    if |s| > 0 {
      JoinSplit(s[1..]);
      var t := Split(s[1..]);
      if s[0] == '\n' {
        assert ([""] + t)[1..] == t;
      } else {
        var r := [[s[0]] + t[0]] + t[1..];
        assert r[1..] == t[1..];
        if |t| > 1 {
          assert Join(t) == t[0] + "\n" + Join(t[1..]);
        }
        assert s == [s[0]] + s[1..];
      }
    }
  }

  /** A string without newlines is a single line. */
  lemma {:induction false} SplitPlain(x: string)
    requires '\n' !in x
    ensures Split(x) == [x]
    decreases |x|
  {
    if |x| > 0 {
      assert '\n' !in x[1..] by {
        forall i | 0 <= i < |x[1..]| ensures x[1..][i] != '\n' {
          assert x[1..][i] == x[i + 1];
        }
      }
      SplitPlain(x[1..]);
      assert x == [x[0]] + x[1..];
    }
  }

  /** A line without newlines followed by a newline splits off as the first line. */
  lemma {:induction false} SplitAfterLine(x: string, y: string)
    requires '\n' !in x
    ensures Split(x + "\n" + y) == [x] + Split(y)
    decreases |x|
  {
    if |x| == 0 {
      assert x + "\n" + y == "\n" + y;
      assert ("\n" + y)[1..] == y;
    } else {
      var s := x + "\n" + y;
      assert s[0] == x[0] && s[0] != '\n';
      assert s[1..] == x[1..] + "\n" + y;
      assert '\n' !in x[1..] by {
        forall i | 0 <= i < |x[1..]| ensures x[1..][i] != '\n' {
          assert x[1..][i] == x[i + 1];
        }
      }
      SplitAfterLine(x[1..], y);
      assert x == [x[0]] + x[1..];
    }
  }

  /** Splitting a join of newline-free lines gives back the lines. */
  lemma {:induction false} SplitJoin(lines: seq<string>)
    requires |lines| >= 1
    requires forall i :: 0 <= i < |lines| ==> '\n' !in lines[i]
    ensures Split(Join(lines)) == lines
    decreases |lines|
  {
    if |lines| == 1 {
      SplitPlain(lines[0]);
    } else {
      SplitJoin(lines[1..]);
      SplitAfterLine(lines[0], Join(lines[1..]));
      assert lines == [lines[0]] + lines[1..];
    }
  }

  /** Each line followed by a newline, as the wrapping loop writes them. */
  function Terminate(lines: seq<string>): string
    decreases |lines|
  {
    if |lines| == 0 then "" else lines[0] + "\n" + Terminate(lines[1..])
  }

  /** Removes one trailing newline, if there is one. */
  function TrimNewline(s: string): (r: string)
    ensures s == r || s == r + "\n"
  {
    if |s| > 0 && s[|s| - 1] == '\n' then s[..|s| - 1] else s
  }

  /** Terminating every line and trimming the last newline is joining. */
  lemma {:induction false} TrimTerminate(lines: seq<string>)
    requires |lines| >= 1
    ensures TrimNewline(Terminate(lines)) == Join(lines)
  {
    TerminateIsJoin(lines);
    var j := Join(lines);
    assert (j + "\n")[..|j + "\n"| - 1] == j;
  }

  lemma {:induction false} TerminateIsJoin(lines: seq<string>)
    requires |lines| >= 1
    ensures Terminate(lines) == Join(lines) + "\n"
    decreases |lines|
  {
    if |lines| > 1 {
      TerminateIsJoin(lines[1..]);
    }
  }

  /** The strings of `parts` one after another. */
  function Concat(parts: seq<string>): string
    decreases |parts|
  {
    if |parts| == 0 then "" else parts[0] + Concat(parts[1..])
  }

  /** The wrapping width: a non-positive width means 80 columns. */
  function EffectiveWidth(width: int): (w: int)
    ensures w > 0
    ensures width > 0 ==> w == width
  {
    if width <= 0 then 80 else width
  }

  /**
   The loop that cuts a line longer than the width: full-width chunks while
   more than `w` characters remain, then the remainder if it is not empty.
   */
  function Pieces(line: string, w: int): seq<string>
    requires w > 0
    decreases |line|
  {
    if |line| > w then [line[..w]] + Pieces(line[w..], w)
    else if |line| > 0 then [line]
    else []
  }

  /** One input line as output lines: kept whole when it fits, else cut into pieces. */
  function WrapLine(line: string, w: int): seq<string>
    requires w > 0
  {
    if |line| <= w then [line] else Pieces(line, w)
  }

  /** Every input line wrapped, in order. */
  function WrapLines(lines: seq<string>, w: int): seq<string>
    requires w > 0
    decreases |lines|
  {
    if |lines| == 0 then [] else WrapLine(lines[0], w) + WrapLines(lines[1..], w)
  }

  /**
   Fixed-width hard wrapping that keeps embedded newlines as line breaks;
   a non-positive width means 80. The lines of the result are the input's
   lines, each wrapped, in order: no other newline is added or removed.
   */
  function WrapText(s: string, width: int): (r: string)
    ensures Split(r) == WrapLines(Split(s), EffectiveWidth(width))
  {
    var out := WrapLines(Split(s), EffectiveWidth(width));
    WrapLinesBounded(Split(s), EffectiveWidth(width));
    TrimTerminate(out);
    SplitJoin(out);
    TrimNewline(Terminate(out))
  }

  /** ⌈n / w⌉ for the line lengths the loop cuts. */
  function CeilDiv(n: nat, w: int): nat
    requires w > 0
  {
    (n + w - 1) / w
  }

  /** Euclidean division has one quotient. */
  lemma DivUnique(a: int, w: int, q: int, r: int)
    requires w > 0 && 0 <= r < w && a == q * w + r
    ensures a / w == q
  {
    var q', r' := a / w, a % w;
    assert a == q' * w + r';
    assert (q - q') * w == r' - r;
    if q > q' {
      MulAtLeast(q - q', w);
    } else if q < q' {
      MulAtLeast(q' - q, w);
    }
  }

  lemma MulAtLeast(k: int, w: int)
    requires k >= 1 && w > 0
    ensures k * w >= w
  {
    assert k * w == (k - 1) * w + w;
  }

  lemma CeilDivStep(n: nat, w: int)
    requires w > 0 && n > w
    ensures CeilDiv(n, w) == 1 + CeilDiv(n - w, w)
  {
    var x := n - 1;
    var q, r := x / w, x % w;
    assert x == q * w + r;
    assert n + w - 1 == (q + 1) * w + r + (w - 1) - (w - 1);
    DivUnique(n + w - 1, w, q + 1, r);
    DivUnique(n - w + w - 1, w, q, r);
  }

  lemma CeilDivSmall(n: nat, w: int)
    requires w > 0 && 0 < n <= w
    ensures CeilDiv(n, w) == 1
  {
  }

  /** A slice of a newline-free string is newline-free. */
  lemma SliceNoNewline(line: string, lo: int, hi: int)
    requires 0 <= lo <= hi <= |line| && '\n' !in line
    ensures '\n' !in line[lo..hi]
  {
    forall i | 0 <= i < hi - lo ensures line[lo..hi][i] != '\n' {
      assert line[lo..hi][i] == line[lo + i];
    }
  }

  /** The pieces of a line rebuild it, and there are ⌈|line| / w⌉ of them. */
  lemma {:induction false} PiecesRebuild(line: string, w: int)
    requires w > 0
    ensures Concat(Pieces(line, w)) == line
    ensures |Pieces(line, w)| == CeilDiv(|line|, w)
    decreases |line|
  {
    if |line| > w {
      PiecesRebuild(line[w..], w);
      CeilDivStep(|line|, w);
      assert line == line[..w] + line[w..];
    } else if |line| > 0 {
      CeilDivSmall(|line|, w);
    }
  }

  /**
   Every piece has between 1 and `w` characters, all but the last exactly
   `w`, and no piece of a newline-free line holds a newline.
   */
  lemma {:induction false} PiecesBounded(line: string, w: int)
    requires w > 0
    ensures forall i :: 0 <= i < |Pieces(line, w)| ==> 0 < |Pieces(line, w)[i]| <= w
    ensures forall i :: 0 <= i < |Pieces(line, w)| - 1 ==> |Pieces(line, w)[i]| == w
    ensures '\n' !in line ==> forall i :: 0 <= i < |Pieces(line, w)| ==> '\n' !in Pieces(line, w)[i]
    decreases |line|
  {
    if |line| > w {
      PiecesBounded(line[w..], w);
      var p := Pieces(line, w);
      var q := Pieces(line[w..], w);
      assert p == [line[..w]] + q;
      forall i | 1 <= i < |p| ensures p[i] == q[i - 1] {
      }
      if '\n' !in line {
        SliceNoNewline(line, 0, w);
        SliceNoNewline(line, w, |line|);
        assert line[0..w] == line[..w] && line[w..|line|] == line[w..];
      }
    }
  }

  /**
   The pieces of a line rebuild it, each has at most `w` characters, all
   but the last have exactly `w`, and there are ⌈|line| / w⌉ of them.
   */
  lemma PiecesShape(line: string, w: int)
    requires w > 0
    ensures Concat(Pieces(line, w)) == line
    ensures |Pieces(line, w)| == CeilDiv(|line|, w)
    ensures forall i :: 0 <= i < |Pieces(line, w)| ==> 0 < |Pieces(line, w)[i]| <= w
    ensures forall i :: 0 <= i < |Pieces(line, w)| - 1 ==> |Pieces(line, w)[i]| == w
    ensures '\n' !in line ==> forall i :: 0 <= i < |Pieces(line, w)| ==> '\n' !in Pieces(line, w)[i]
  {
    PiecesRebuild(line, w);
    PiecesBounded(line, w);
  }

  /**
   Each input line becomes max(1, ⌈|line| / w⌉) output lines of at most `w`
   characters that rebuild it; a line that fits stays whole.
   */
  lemma WrapLineShape(line: string, w: int)
    requires w > 0
    ensures Concat(WrapLine(line, w)) == line
    ensures |WrapLine(line, w)| == (if |line| == 0 then 1 else CeilDiv(|line|, w))
    ensures forall i :: 0 <= i < |WrapLine(line, w)| ==> |WrapLine(line, w)[i]| <= w
    ensures '\n' !in line ==> forall i :: 0 <= i < |WrapLine(line, w)| ==> '\n' !in WrapLine(line, w)[i]
    ensures |line| <= w ==> WrapLine(line, w) == [line]
  {
    PiecesShape(line, w);
    if |line| <= w {
      assert Concat([line]) == line + Concat([]);
      if |line| > 0 {
        CeilDivSmall(|line|, w);
      }
    }
  }

  /** Wrapping newline-free lines gives newline-free lines of at most `w` characters, at least one per input line. */
  lemma {:induction false} WrapLinesBounded(lines: seq<string>, w: int)
    requires w > 0
    requires forall i :: 0 <= i < |lines| ==> '\n' !in lines[i]
    ensures |WrapLines(lines, w)| >= |lines|
    ensures forall i :: 0 <= i < |WrapLines(lines, w)| ==> |WrapLines(lines, w)[i]| <= w && '\n' !in WrapLines(lines, w)[i]
    decreases |lines|
  {
    if |lines| > 0 {
      WrapLineShape(lines[0], w);
      WrapLinesBounded(lines[1..], w);
      var a := WrapLine(lines[0], w);
      var b := WrapLines(lines[1..], w);
      assert WrapLines(lines, w) == a + b;
      forall i | 0 <= i < |a + b| ensures |(a + b)[i]| <= w && '\n' !in (a + b)[i] {
        if i < |a| {
          assert (a + b)[i] == a[i];
        } else {
          assert (a + b)[i] == b[i - |a|];
        }
      }
    }
  }

  /** Lines that already fit are left as they are. */
  lemma {:induction false} WrapLinesFit(lines: seq<string>, w: int)
    requires w > 0
    requires forall i :: 0 <= i < |lines| ==> |lines[i]| <= w
    ensures WrapLines(lines, w) == lines
    decreases |lines|
  {
    if |lines| > 0 {
      WrapLinesFit(lines[1..], w);
      assert lines == [lines[0]] + lines[1..];
    }
  }

  /** Every line of the wrapped text fits the (effective) width. */
  lemma WrapTextWidth(s: string, width: int)
    ensures forall line :: line in Split(WrapText(s, width)) ==> |line| <= EffectiveWidth(width)
  {
    WrapLinesBounded(Split(s), EffectiveWidth(width));
  }

  /** A non-positive width wraps at 80 columns. */
  lemma WrapTextDefaultWidth(s: string, width: int)
    requires width <= 0
    ensures WrapText(s, width) == WrapText(s, 80)
  {
  }

  /** Text whose lines all fit the width is returned unchanged. */
  lemma WrapTextFits(s: string, width: int)
    requires forall line :: line in Split(s) ==> |line| <= EffectiveWidth(width)
    ensures WrapText(s, width) == s
  {
    var w := EffectiveWidth(width);
    WrapLinesFit(Split(s), w);
    TrimTerminate(Split(s));
    JoinSplit(s);
  }

  /** Wrapping twice at the same width is wrapping once. */
  lemma WrapTextIdempotent(s: string, width: int)
    ensures WrapText(WrapText(s, width), width) == WrapText(s, width)
  {
    WrapTextWidth(s, width);
    WrapTextFits(WrapText(s, width), width);
  }

  /** A 200-character line at width 80 becomes its characters 0-79, 80-159 and 160-199 as three lines. */
  lemma WrapTwoHundredAtEighty(line: string)
    requires |line| == 200 && '\n' !in line
    ensures Split(WrapText(line, 80)) == [line[..80], line[80..160], line[160..]]
  {
    SplitPlain(line);
    assert WrapLines([line], 80) == WrapLine(line, 80) + WrapLines([], 80);
    var rest := line[80..];
    assert rest[..80] == line[80..160] && rest[80..] == line[160..];
    assert Pieces(rest[80..], 80) == [line[160..]];
    assert Pieces(rest, 80) == [line[80..160], line[160..]];
    assert Pieces(line, 80) == [line[..80]] + Pieces(rest, 80);
  }

  /**
   Shortens a string longer than `max` to exactly `max` characters: its
   first `max - 3` characters followed by an ellipsis. The cut panics in
   the program when `max < 3`, so callers pass at least 3.
   */
  function Truncate(s: string, max: int): (r: string)
    requires max >= 3
    ensures |r| <= max
    ensures |s| <= max ==> r == s
    ensures |s| > max ==> |r| == max && r[..max - 3] == s[..max - 3] && r[max - 3..] == "..."
  {
    if |s| <= max then s else s[..max - 3] + "..."
  }

  /** Truncating twice to the same budget is truncating once. */
  lemma TruncateIdempotent(s: string, max: int)
    requires max >= 3
    ensures Truncate(Truncate(s, max), max) == Truncate(s, max)
  {
  }

  /** The decimal digit for 0..9. */
  function DigitChar(d: int): (c: char)
    requires 0 <= d < 10
    ensures '0' <= c <= '9'
  {
    ('0' as int + d) as char
  }

  /** A string of decimal digits only. */
  predicate AllDigits(s: string) {
    forall i :: 0 <= i < |s| ==> '0' <= s[i] <= '9'
  }

  /**
   Decimal digits of a natural number, most significant first: one digit
   below 10, and no leading zero (only zero itself starts with '0').
   */
  function Digits(n: nat): (r: string)
    ensures |r| >= 1 && AllDigits(r)
    ensures |r| == 1 <==> n < 10
    ensures r[0] == '0' <==> n == 0
    decreases n
  {
    if n < 10 then [DigitChar(n)] else Digits(n / 10) + [DigitChar(n % 10)]
  }

  /** The number a string of decimal digits spells, most significant first. */
  function DigitsValue(s: string): nat
    requires AllDigits(s)
    decreases |s|
  {
    if |s| == 0 then 0
    else DigitsValue(s[..|s| - 1]) * 10 + (s[|s| - 1] as int - '0' as int)
  }

  /** Reads back an optional minus sign followed by decimal digits. */
  function ParseDecimal(s: string): int
    requires |s| >= 1 && AllDigits(s[1..])
    requires s[0] == '-' || '0' <= s[0] <= '9'
  {
    var magnitude: int := if s[0] == '-' then DigitsValue(s[1..]) else DigitsValue(s);
    if s[0] == '-' then -magnitude else magnitude
  }

  /** The digits of `n` spell `n`. */
  lemma {:induction false} DigitsValueOfDigits(n: nat)
    ensures DigitsValue(Digits(n)) == n
    decreases n
  {
    if n >= 10 {
      DigitsValueOfDigits(n / 10);
      var d := Digits(n);
      assert d[..|d| - 1] == Digits(n / 10);
    }
  }

  /**
   An integer printed in decimal with a leading minus sign when negative:
   the text reads back as the same number, it starts with a minus sign
   exactly when the number is negative, and its digits have no leading
   zero (zero prints as "0").
   */
  function DecimalString(n: int): (r: string)
    ensures |r| >= 1 && AllDigits(r[1..]) && (r[0] == '-' || '0' <= r[0] <= '9')
    ensures r[0] == '-' <==> n < 0
    ensures n >= 0 ==> (|r| > 1 ==> r[0] != '0')
    ensures n < 0 ==> |r| >= 2 && r[1] != '0'
    ensures ParseDecimal(r) == n
  {
    if n < 0 then
      DigitsValueOfDigits(-n);
      assert ("-" + Digits(-n))[1..] == Digits(-n);
      "-" + Digits(-n)
    else
      DigitsValueOfDigits(n);
      Digits(n)
  }

  /** A digit string without a leading zero spells at least 1, and at least 10 from two digits on. */
  lemma {:induction false} DigitsValueLeading(s: string)
    requires |s| >= 1 && AllDigits(s) && s[0] != '0'
    ensures DigitsValue(s) >= 1
    ensures |s| >= 2 ==> DigitsValue(s) >= 10
    decreases |s|
  {
    if |s| >= 2 {
      var p := s[..|s| - 1];
      assert p[0] == s[0];
      assert AllDigits(p) by {
        forall k | 0 <= k < |p| ensures '0' <= p[k] <= '9' {
          assert p[k] == s[k];
        }
      }
      DigitsValueLeading(p);
    }
  }

  /** A digit string without a leading zero is the printing of the number it spells. */
  lemma {:induction false} DigitsUnique(s: string)
    requires |s| >= 1 && AllDigits(s)
    requires |s| > 1 ==> s[0] != '0'
    ensures Digits(DigitsValue(s)) == s
    decreases |s|
  {
    var v := DigitsValue(s);
    var d := s[|s| - 1] as int - '0' as int;
    if |s| == 1 {
      assert s[..|s| - 1] == "";
      assert DigitsValue(s[..|s| - 1]) == 0;
      assert v == d;
      assert DigitChar(d) == s[0];
    } else {
      var p := s[..|s| - 1];
      assert p[0] == s[0];
      assert AllDigits(p) by {
        forall k | 0 <= k < |p| ensures '0' <= p[k] <= '9' {
          assert p[k] == s[k];
        }
      }
      DigitsValueLeading(s);
      DigitsUnique(p);
      DivUnique(v, 10, DigitsValue(p), d);
      assert v % 10 == d;
      assert DigitChar(d) == s[|s| - 1];
      assert s == p + [s[|s| - 1]];
    }
  }

  /**
   `DecimalString` is the only printing of its kind: any optional minus
   sign followed by digits without a leading zero (and not "-0") is the
   printing of the number it reads back as.
   */
  lemma DecimalUnique(s: string)
    requires |s| >= 1 && AllDigits(s[1..]) && (s[0] == '-' || '0' <= s[0] <= '9')
    requires s[0] == '-' ==> |s| >= 2 && s[1] != '0'
    requires s[0] != '-' ==> (|s| > 1 ==> s[0] != '0')
    ensures DecimalString(ParseDecimal(s)) == s
  {
    if s[0] == '-' {
      var t := s[1..];
      assert t[0] == s[1];
      DigitsValueLeading(t);
      DigitsUnique(t);
      assert s == "-" + t;
    } else {
      assert AllDigits(s) by {
        forall k | 0 <= k < |s| ensures '0' <= s[k] <= '9' {
          if k > 0 {
            assert s[k] == s[1..][k - 1];
          }
        }
      }
      DigitsUnique(s);
    }
  }
}

=== FILE: view.dfy ===
/**
 The renderer (internal/app/view.go): a pure function from the state to
 the screen text. Terminal styling is left out: every styled span renders
 as its plain text.
 */
module Views {
  import opened Wrappers
  import opened Seqs
  import opened Reddit
  import opened App
  import opened Text
  import Screens

  const PostListHelp: string := "↑/↓: navigate • enter: view • pgdn: more • r: refresh • q: quit"
  const PostDetailHelp: string := "c: comments • esc: back • q: quit"
  const CommentsHelp: string := "esc: back • q: quit"
  const NoPostSelected: string := "No post selected"
  const RetryHint: string := "Press 'r' to retry, 'q' to quit"

  /** The error overlay: the message as given, a blank line, and the retry and quit hints. */
  function ErrorView(e: Error): (r: string)
    ensures StartsWith(r, "Error: " + e)
    ensures EndsWith(r, "\n\n" + RetryHint)
    ensures |r| == |"Error: "| + |e| + |"\n\n" + RetryHint|
  {
    StartsWithConcat("Error: " + e, "\n\n" + RetryHint);
    EndsWithConcat("Error: " + e, "\n\n" + RetryHint);
    "Error: " + e + ("\n\n" + RetryHint)
  }

  /** The header line naming a community. */
  function CommunityHeader(name: string): (r: string)
    ensures StartsWith(r, " r/") && EndsWith(r, " ")
    ensures |r| == |name| + 4 && r[3..|r| - 1] == name
  {
    ThreeParts(" r/", name, " ");
    " r/" + name + " "
  }

  /**
   One row of the post list: the "> " marker exactly on the selected row
   (two spaces otherwise), then the bracketed score, and last the comment
   count, the row ending in a newline.
   */
  function PostRow(p: Post, selected: bool): (r: string)
    ensures StartsWith(r, "> ") <==> selected
    ensures |r| >= 2 && StartsWith(r[2..], "[" + DecimalString(p.score) + "] " + p.title + " ")
    ensures EndsWith(r, "(" + DecimalString(p.numComments) + " comments)\n")
  {
    var middle := "[" + DecimalString(p.score) + "] " + p.title + " ";
    var tail := "(" + DecimalString(p.numComments) + " comments)\n";
    MarkedRow(selected, middle, tail);
    (if selected then "> " else "  ") + middle + tail
  }

  /** A row made of a two-character marker and two parts, as `PostRow` builds it. */
  lemma MarkedRow(selected: bool, middle: string, tail: string)
    ensures StartsWith((if selected then "> " else "  ") + middle + tail, "> ") <==> selected
    ensures StartsWith(((if selected then "> " else "  ") + middle + tail)[2..], middle)
    ensures EndsWith((if selected then "> " else "  ") + middle + tail, tail)
  {
    var marker := if selected then "> " else "  ";
    ThreeParts(marker, middle, tail);
    StartsWithConcat(middle, tail);
    if !selected {
      assert (marker + middle + tail)[..2] == marker;
      assert marker[0] != "> "[0];
    }
  }

  /** The row of every post, in order, with the row at `cursor` selected. */
  function RowList(posts: seq<Post>, cursor: int): (r: seq<string>)
    ensures |r| == |posts|
    ensures forall i :: 0 <= i < |r| ==> r[i] == PostRow(posts[i], i == cursor)
    ensures forall i :: 0 <= i < |r| ==> (StartsWith(r[i], "> ") <==> i == cursor)
  {
    seq(|posts|, i requires 0 <= i < |posts| => PostRow(posts[i], i == cursor))
  }

  /** The rows of the posts from index `from` on: those entries of `RowList`, one after another. */
  function PostRows(posts: seq<Post>, cursor: int, from: nat): (r: string)
    ensures from <= |posts| ==> r == Concat(RowList(posts, cursor)[from..])
    decreases |posts| - from
  {
    if from >= |posts| then ""
    else
      var rows := RowList(posts, cursor);
      assert rows[from..][1..] == rows[from + 1..];
      PostRow(posts[from], from == cursor) + PostRows(posts, cursor, from + 1)
  }

  /**
   What follows the rows of the post list: "Loading more..." on a line of
   its own while loading, then the help line.
   */
  function ListFooter(loading: bool): (r: string)
    ensures loading ==> r == "\nLoading more...\n" + PostListHelp
    ensures !loading ==> r == "\n" + PostListHelp
    ensures EndsWith(r, "\n" + PostListHelp)
  {
    EndsWithConcat("\nLoading more...", "\n" + PostListHelp);
    EndsWithConcat("", "\n" + PostListHelp);
    assert "" + ("\n" + PostListHelp) == "\n" + PostListHelp;
    assert "\nLoading more..." + ("\n" + PostListHelp) == "\nLoading more...\n" + PostListHelp;
    if loading then "\nLoading more...\n" + PostListHelp else "\n" + PostListHelp
  }

  /**
   The post list: the community header, then either only "Loading..." (an
   empty list still loading) or the rows, a "Loading more..." line while
   loading, and the help line.
   */
  function ViewPostList(m: Model): (r: string)
    ensures StartsWith(r, CommunityHeader(m.subreddit) + "\n\n")
    ensures m.loading && |m.posts| == 0 ==> r == CommunityHeader(m.subreddit) + "\n\n" + "Loading..."
    ensures !(m.loading && |m.posts| == 0) ==>
      r == CommunityHeader(m.subreddit) + "\n\n" + Concat(RowList(m.posts, m.cursor)) + ListFooter(m.loading)
    ensures !(m.loading && |m.posts| == 0) ==>
      StartsWith(r[|CommunityHeader(m.subreddit) + "\n\n"|..], Concat(RowList(m.posts, m.cursor)))
    ensures !(m.loading && |m.posts| == 0) ==> EndsWith(r, "\n" + PostListHelp)
    ensures m.loading && |m.posts| > 0 ==> EndsWith(r, "\nLoading more...\n" + PostListHelp)
  {
    var head := CommunityHeader(m.subreddit) + "\n\n";
    if m.loading && |m.posts| == 0 then
      StartsWithConcat(head, "Loading...");
      head + "Loading..."
    else
      var rows := PostRows(m.posts, m.cursor, 0);
      assert RowList(m.posts, m.cursor)[0..] == RowList(m.posts, m.cursor);
      var footer := ListFooter(m.loading);
      ThreeParts(head, rows, footer);
      StartsWithConcat(rows, footer);
      EndsWithTrans(head + rows + footer, footer, "\n" + PostListHelp);
      head + rows + footer
  }

  /**
   The body of a post detail: the self text of a text post, else the link,
   else nothing; whatever is shown ends in a newline, and a text post's own
   text takes precedence over its link.
   */
  function DetailBody(p: Post): (r: string)
    ensures r == "" <==> (!p.isSelf || p.selfText == "") && p.url == ""
    ensures r != "" ==> r[|r| - 1] == '\n' && (r[..|r| - 1] == p.selfText || r[..|r| - 1] == p.url)
    ensures p.isSelf && p.selfText != "" ==> r[..|r| - 1] == p.selfText
    ensures !(p.isSelf && p.selfText != "") && p.url != "" ==> r[..|r| - 1] == p.url
  {
    if p.isSelf && p.selfText != "" then p.selfText + "\n"
    else if p.url != "" then p.url + "\n"
    else ""
  }

  /** The byline of a post: its author, score and comment count. */
  function Byline(p: Post): (r: string)
    ensures StartsWith(r, "by " + p.author + " • ")
    ensures EndsWith(r, DecimalString(p.numComments) + " comments")
    ensures r[|"by " + p.author + " • "|..] == DecimalString(p.score) + " points • " + DecimalString(p.numComments) + " comments"
  {
    var head := "by " + p.author + " • ";
    var middle := DecimalString(p.score) + " points • ";
    var tail := DecimalString(p.numComments) + " comments";
    ThreeParts(head, middle, tail);
    head + middle + tail
  }

  /**
   The post detail of the post under the cursor: its community, title,
   byline, body and the help line; without posts, a placeholder.
   */
  function ViewPostDetail(m: Model): (r: string)
    requires CursorOk(m)
    ensures |m.posts| == 0 ==> r == NoPostSelected
    ensures |m.posts| > 0 ==>
      && StartsWith(r, CommunityHeader(m.posts[m.cursor].subreddit) + "\n\n" + m.posts[m.cursor].title + "\n")
      && EndsWith(r, "\n" + PostDetailHelp)
    ensures |m.posts| > 0 ==>
      r == CommunityHeader(m.posts[m.cursor].subreddit) + "\n\n" + m.posts[m.cursor].title + "\n"
           + Byline(m.posts[m.cursor]) + "\n\n" + (DetailBody(m.posts[m.cursor]) + ("\n" + PostDetailHelp))
    ensures |m.posts| > 0 ==> EndsWith(r, DetailBody(m.posts[m.cursor]) + ("\n" + PostDetailHelp))
  {
    if |m.posts| == 0 then NoPostSelected
    else
      var post := m.posts[m.cursor];
      var head := CommunityHeader(post.subreddit) + "\n\n" + post.title + "\n";
      var upper := head + Byline(post) + "\n\n";
      var tail := DetailBody(post) + ("\n" + PostDetailHelp);
      StartsWithConcat(head, Byline(post));
      StartsWithConcat(head + Byline(post), "\n\n");
      StartsWithConcat(upper, tail);
      StartsWithTrans(upper, head + Byline(post), head);
      StartsWithTrans(upper + tail, upper, head);
      EndsWithConcat(upper, tail);
      EndsWithConcat(DetailBody(post), "\n" + PostDetailHelp);
      EndsWithTrans(upper + tail, tail, "\n" + PostDetailHelp);
      upper + tail
  }

  /** `depth` levels of two-space indentation. */
  function Indent(depth: nat): (r: string)
    ensures |r| == 2 * depth
    ensures forall i :: 0 <= i < |r| ==> r[i] == ' '
  {
    if depth == 0 then "" else "  " + Indent(depth - 1)
  }

  /** Each line prefixed with the indentation. */
  function Indented(indent: string, lines: seq<string>): (r: seq<string>)
    ensures |r| == |lines|
    ensures forall i :: 0 <= i < |r| ==> r[i] == indent + lines[i]
  {
    if |lines| == 0 then [] else [indent + lines[0]] + Indented(indent, lines[1..])
  }

  /** The wrapping width of a comment body: 80 columns less the indentation. */
  function BodyWidth(c: Comment): (r: int)
    ensures r == 80 - 2 * c.depth
    ensures r > 0 <==> c.depth < 40
  {
    80 - |Indent(c.depth)|
  }

  /** Each line without its first `n` characters (a line shorter than that is kept). */
  function Unindented(lines: seq<string>, n: nat): seq<string> {
    seq(|lines|, i requires 0 <= i < |lines| => if n <= |lines[i]| then lines[i][n..] else lines[i])
  }

  /**
   The lines of a comment body as shown: at least one, each starting with
   the comment's indentation and free of newlines, and with the
   indentation taken off they join back into the wrapped body.
   */
  function BodyLines(c: Comment): (r: seq<string>)
    ensures |r| >= 1
    ensures forall i :: 0 <= i < |r| ==> StartsWith(r[i], Indent(c.depth)) && '\n' !in r[i]
    ensures Join(Unindented(r, 2 * c.depth)) == WrapText(c.body, BodyWidth(c))
  {
    var ind := Indent(c.depth);
    var lines := Split(WrapText(c.body, BodyWidth(c)));
    var r := Indented(ind, lines);
    forall i | 0 <= i < |r| ensures StartsWith(r[i], ind) && '\n' !in r[i] && r[i][|ind|..] == lines[i] {
      StartsWithConcat(ind, lines[i]);
      assert r[i][|ind|..] == lines[i];
      assert '\n' !in ind;
      assert forall k :: 0 <= k < |r[i]| ==> r[i][k] == (if k < |ind| then ind[k] else lines[i][k - |ind|]);
    }
    assert Unindented(r, |ind|) == lines;
    JoinSplit(WrapText(c.body, BodyWidth(c)));
    r
  }

  /**
   One comment: the indented author line, each body line followed by a
   newline, and a blank line.
   */
  function CommentBlock(c: Comment): (r: string)
    ensures StartsWith(r, Indent(c.depth) + c.author + " [")
    ensures StartsWith(r, Indent(c.depth) + c.author + " [" + DecimalString(c.score) + "]\n")
    ensures EndsWith(r, Terminate(BodyLines(c)) + "\n")
  {
    var head := Indent(c.depth) + c.author + " [";
    var score := DecimalString(c.score) + "]\n";
    var tail := Terminate(BodyLines(c)) + "\n";
    ThreeParts(head, score, tail);
    StartsWithConcat(head + score, tail);
    head + score + tail
  }

  /** The block of every comment, in order. */
  function BlockList(comments: seq<Comment>): (r: seq<string>)
    ensures |r| == |comments|
    ensures forall i :: 0 <= i < |r| ==> r[i] == CommentBlock(comments[i])
  {
    seq(|comments|, i requires 0 <= i < |comments| => CommentBlock(comments[i]))
  }

  /** All comments, one block each, in order: the entries of `BlockList`, one after another. */
  function CommentBlocks(comments: seq<Comment>): (r: string)
    ensures r == Concat(BlockList(comments))
    decreases |comments|
  {
    if |comments| == 0 then ""
    else
      assert BlockList(comments)[1..] == BlockList(comments[1..]);
      CommentBlock(comments[0]) + CommentBlocks(comments[1..])
  }

  /**
   The header of the comments screen: the post title in full when it has
   at most 40 characters, else its first 37 followed by "..."; the header
   is then at most 54 characters.
   */
  function CommentsHeader(title: string): (r: string)
    ensures |r| <= 14 + 40
    ensures |title| <= 40 ==> r == " Comments: " + title + " \n\n"
    ensures |title| > 40 ==> |r| == 54 && r[11..51] == title[..37] + "..."
  {
    var t := Truncate(title, 40);
    var r := " Comments: " + t + " " + "\n\n";
    assert r[11..11 + |t|] == t;
    r
  }

  /**
   The comments screen of the post under the cursor: header, then either
   the loading line, the empty line, or the comment blocks and the help
   line; without posts, a placeholder.
   */
  function ViewComments(m: Model): (r: string)
    requires CursorOk(m)
    ensures |m.posts| == 0 ==> r == NoPostSelected
    ensures |m.posts| > 0 ==> StartsWith(r, CommentsHeader(m.posts[m.cursor].title))
    ensures |m.posts| > 0 && m.loading ==> r == CommentsHeader(m.posts[m.cursor].title) + "Loading comments..."
    ensures |m.posts| > 0 && !m.loading && |m.comments| == 0 ==>
      r == CommentsHeader(m.posts[m.cursor].title) + "No comments"
    ensures |m.posts| > 0 && !m.loading && |m.comments| > 0 ==> EndsWith(r, CommentsHelp)
    ensures |m.posts| > 0 && !m.loading && |m.comments| > 0 ==>
      r == CommentsHeader(m.posts[m.cursor].title) + Concat(BlockList(m.comments)) + CommentsHelp
  {
    if |m.posts| == 0 then NoPostSelected
    else
      var head := CommentsHeader(m.posts[m.cursor].title);
      StartsWithConcat(head, "Loading comments...");
      StartsWithConcat(head, "No comments");
      if m.loading then head + "Loading comments..."
      else if |m.comments| == 0 then head + "No comments"
      else
        ThreeParts(head, CommentBlocks(m.comments), CommentsHelp);
        head + CommentBlocks(m.comments) + CommentsHelp
  }

  /**
   The screen text: the error overlay whenever an error is set, whatever
   the screen; otherwise the current screen's view, and nothing for a
   screen without a view.
   */
  function View(m: Model): (r: string)
    requires CursorOk(m)
    ensures m.err.Some? ==> r == ErrorView(m.err.value)
    ensures m.err.None? && m.screen == Screens.PostList ==> r == ViewPostList(m)
    ensures m.err.None? && m.screen == Screens.PostDetail ==> r == ViewPostDetail(m)
    ensures m.err.None? && m.screen == Screens.Comments ==> r == ViewComments(m)
    ensures m.err.None? && !(m.screen in {Screens.PostList, Screens.PostDetail, Screens.Comments}) ==> r == ""
  {
    if m.err.Some? then ErrorView(m.err.value)
    else if m.screen == Screens.PostList then ViewPostList(m)
    else if m.screen == Screens.PostDetail then ViewPostDetail(m)
    else if m.screen == Screens.Comments then ViewComments(m)
    else ""
  }
}

=== FILE: view_lemmas.dfy ===
/**
 Properties of the renderer (internal/app/view.go) and end-to-end
 scenarios that combine the update step with the screen text.
 */
module ViewLemmas {
  import opened Wrappers
  import opened Reddit
  import opened App
  import opened Text
  import opened Views
  import opened AppLemmas
  import Screens
  import Keys

  /** While an error is set, the screen text does not depend on the screen. */
  lemma ErrorHidesScreen(m: Model, s: Screens.Screen)
    requires CursorOk(m) && m.err.Some?
    ensures View(m.(screen := s)) == View(m) == ErrorView(m.err.value)
  {
  }

  /** The recorded terminal size never affects the screen text. */
  lemma ViewIgnoresSize(m: Model, w: int, h: int)
    requires CursorOk(m)
    ensures View(m.(width := w, height := h)) == View(m)
  {
  }

  /** The post list shows "Loading..." alone, without rows or help, while an empty list loads. */
  lemma LoadingEmptyList(m: Model)
    requires CursorOk(m) && m.err.None? && m.screen == Screens.PostList
    requires m.loading && |m.posts| == 0
    ensures View(m) == " r/" + m.subreddit + " \n\nLoading..."
  {
    assert CommunityHeader(m.subreddit) == " r/" + m.subreddit + " ";
  }

  /**
   The start-up fetch does not mark the state as loading, so until it
   completes the post list shows the empty list with its help line rather
   than "Loading...".
   */
  lemma InitialViewNotLoading()
    ensures Init(NewModel()).FetchPosts?
    ensures !NewModel().loading
    ensures View(NewModel()) == " r/reddevils \n\n" + ("\n" + PostListHelp)
  {
    var m := NewModel();
    var head := CommunityHeader(m.subreddit) + "\n\n";
    assert head == " r/reddevils \n\n";
    assert RowList(m.posts, m.cursor) == [];
    assert Concat(RowList(m.posts, m.cursor)) == "";
    assert head + "" == head;
    assert ListFooter(m.loading) == "\n" + PostListHelp;
  }

  /** With no posts, the detail and comments screens show the placeholder. */
  lemma NoPostPlaceholder(m: Model)
    requires CursorOk(m) && m.err.None? && |m.posts| == 0
    requires m.screen == Screens.PostDetail || m.screen == Screens.Comments
    ensures View(m) == "No post selected"
  {
  }

  /**
   A comment indented by fewer than 40 levels has every body line,
   indentation included, within 80 columns.
   */
  lemma CommentLinesFit(c: Comment)
    requires c.depth < 40
    ensures forall line :: line in BodyLines(c) ==> |line| <= 80
  {
    WrapTextWidth(c.body, BodyWidth(c));
    var lines := Split(WrapText(c.body, BodyWidth(c)));
    var shown := BodyLines(c);
    forall line | line in shown ensures |line| <= 80 {
      var i :| 0 <= i < |shown| && shown[i] == line;
      assert lines[i] in lines;
    }
  }

  /**
   From 40 levels on the body width is not positive, so the body wraps at
   80 columns after the indentation.
   */
  lemma DeepCommentLines(c: Comment)
    requires c.depth >= 40
    ensures BodyWidth(c) <= 0
    ensures forall line :: line in BodyLines(c) ==> |line| <= 2 * c.depth + 80
  {
    WrapTextWidth(c.body, BodyWidth(c));
    var lines := Split(WrapText(c.body, BodyWidth(c)));
    var shown := BodyLines(c);
    forall line | line in shown ensures |line| <= 2 * c.depth + 80 {
      var i :| 0 <= i < |shown| && shown[i] == line;
      assert lines[i] in lines;
    }
  }

  /**
   As written: after the first load fails, the error overlay stays even
   when the offered retry succeeds, because no event clears the error.
   */
  lemma RetryKeepsErrorView(e: Error, posts: seq<RawPost>, after: string)
    ensures var m0 := NewModel();
            var m1 := Update(m0, PostsDelivered(Init(m0), PostsFailed(e))).0;
            var (m2, c2) := Update(m1, Key("r"));
            && View(m1) == ErrorView(e)
            && c2 == Some(FetchPosts("reddevils", "hot", "", 25))
            && var m3 := Update(m2, PostsDelivered(c2.value, PostsOk(posts, after))).0;
               && m3.posts == MapPosts(posts)
               && View(m3) == ErrorView(e)
  {
    var m0 := NewModel();
    var m1 := Update(m0, PostsDelivered(Init(m0), PostsFailed(e))).0;
    Keys.QuitKeys("r");
    RefreshKey(m1, "r");
  }

  /**
   Corrected: with recovery, the successful retry dismisses the overlay
   and the post list shows the fetched posts.
   */
  lemma RetryRecovers(e: Error, posts: seq<RawPost>, after: string)
    ensures var m0 := NewModel();
            var m1 := UpdateRecovering(m0, PostsDelivered(Init(m0), PostsFailed(e))).0;
            var (m2, c2) := UpdateRecovering(m1, Key("r"));
            && View(m1) == ErrorView(e)
            && c2 == Some(FetchPosts("reddevils", "hot", "", 25))
            && var m3 := UpdateRecovering(m2, PostsDelivered(c2.value, PostsOk(posts, after))).0;
               && m3.err.None?
               && m3.posts == MapPosts(posts)
               && View(m3) == ViewPostList(m3)
  {
    var m0 := NewModel();
    var m1 := UpdateRecovering(m0, PostsDelivered(Init(m0), PostsFailed(e))).0;
    Keys.QuitKeys("r");
    RefreshKey(m1, "r");
  }
}

=== FILE: wrappers.dfy ===
/** Optional values: the model's stand-in for Go's nil-able `error`. */
module Wrappers {

  /** Either nothing (Go's nil) or a value. */
  datatype Option<+T> = None | Some(value: T)
}
